=== FILE: README.md ===
# Kea documentation site: the logic behind its interactive examples

The Kea documentation website is mostly static content. A few pieces of
sequential logic sit under its interactive examples, and this project models
them in Dafny and proves what they promise:

- **`introCodeLogic`**, the state of the interactive code widget.
  - `expanded` records which sections of the example are open. `expand` opens a section, `shrink` closes it and `setExpanded` replaces the whole value.
  - On the API page the value is also kept in the URL's `expanded` hash parameter, written as the keys joined by `,`. The search parameters pass through unchanged. It is read back with `split(',')`, and a guard stops the read from feeding back into the store.
  - The value is modelled as the sequence of its keys in `Object.keys` order, without repeats. Every key maps to `true`.
  - Module `ExpandedState`. The store is the class `ExpandedState.IntroCodeLogic`.
- **The line tokenizer `split`** of the widget.
  - An ordered table of regular-expression rules is tried on the line. The first rule that cuts it into more than one part wins.
  - Matched parts (odd indices) are coloured or rendered by the rule. The text between matches (even indices) is tokenized again one level deeper.
  - A blank string, or depth beyond 3, is returned as it is.
  - Two copies catch a `RegExp` constructor error and move on to the next rule. The copy in `src/components/intro-code.js` does not catch it.
  - A section marker `#[code]#` shows Shrink when `expanded[code]` is truthy. That read also finds members every object inherits, such as `constructor`, so the model checks those names too.
  - The line is indented by half its leading spaces, counted with `/^( *)[^ ]*.*$/`. The text handed to `split` is the line cut there and trimmed.
  - Regular-expression matching is an oracle given as a parameter. Module `Tokenizer`.
- **`githubLogic`**, the GitHub search demo on the front page.
  - Its six reducers respond to `setUsername`, `repositoriesLoaded`, `repositoryLoadError`, `setUsernameFailure` and `openPage`.
  - Its selectors are the page slice `repositoriesForPage`, the page count `pages` and `isLoading`.
  - Module `GithubLogic`.
- **`sortedRepositories`**, which sorts the repository array in place by star count, most stars first. Module `RepoSort`.
- **The tutorial's GitHub search logic**, in two copies that differ in the initial `isLoading`.
  - Its reducers respond to `setUsername`, `setRepositories` and `setFetchError`.
  - Its listener chooses between `setRepositories` and `setFetchError` on the response status.
  - Module `GithubTutorial`.
- **`api`**, the per-user memo caches `usersCache` and `repoCache` of the front-page demo.
  - `getUser` and `getRepositories` fetch only for a user not yet cached. They store the body, or `{ error: message }` for a failed response.
  - They return the stored value, falling back to `null` or `[]` when it is falsy.
  - The response is an input. The URL that would be fetched is an output.
  - Module `GithubApi`, class `GithubApi.ApiCache`. The JavaScript values involved, their truthiness, `||` and property reads are in module `JsValues`.

The JavaScript built-ins that this logic relies on are stated over Dafny values in module `JsBuiltins`:
- `join` and `split` with a one-character separator (`JsBuiltins.Join`, `JsBuiltins.StringSplit`);
- `substring`, with clamping and swapping of its arguments;
- `slice`, with negative indices;
- `trim`, over the ECMAScript whitespace and line-terminator set.

Numbers are integers throughout. `children.substring(len / 2)` truncates a fractional argument, so it is modelled with floor division on a non-negative length.

## Model

| member | source | states |
|---|---|---|
| ExpandedState.InitialValues | docs/api/kea/code.js:12-15 | The API page starts with no section open. The front-page copy (src/components/intro/code.js:10-14) starts with exactly `component` open. |
| ExpandedState.ReduceExpand | docs/api/kea/code.js:17 | After `expand(code)` the section is open. Every other key and the key order are unchanged: the old keys are a prefix of the result, and at most one key is added. Distinct keys stay distinct. |
| ExpandedState.ReduceShrink | docs/api/kea/code.js:18-21 | After `shrink(code)` the section is closed, and every other key is open exactly when it was before. |
| ExpandedState.ReduceSetExpanded | docs/api/kea/code.js:22 | After `setExpanded(m)` the open sections are exactly those of `m`, whatever the state was. |
| ExpandedState.ExpandIdempotent | src/pages/intro-code.js:13 | Expanding twice is expanding once, and expanding an open section changes nothing. |
| ExpandedState.ShrinkAbsent | src/pages/intro-code.js:14-17 | Shrinking a section that is not open leaves the state exactly as it was. |
| ExpandedState.ShrinkRemovesOne | src/components/intro-code.js:14-17 | Shrinking removes exactly the one key, at its position, keeps the other keys in their order, and keeps them distinct. |
| ExpandedState.ShrinkUndoesExpand | src/components/intro/code.js:15-19 | Shrinking a section just expanded from closed restores the previous state exactly. |
| ExpandedState.Encode | docs/api/kea/code.js:26-36 | The URL value written for no open section is `""`. For comma-free keys it starts with the first key and holds `|keys| - 1` commas. `JsBuiltins.SplitJoin` pins where they stand. |
| ExpandedState.FromEntries | docs/api/kea/code.js:41 | `Object.fromEntries` of the pieces has a key for exactly the pieces, once each, and no more keys than pieces. |
| ExpandedState.FromEntriesOfDistinct | docs/api/kea/code.js:41 | For distinct pieces, `fromEntries` keeps them all, in order. |
| ExpandedState.FromEntriesDropsRepeats | docs/api/kea/code.js:41 | When a piece repeats, `fromEntries` gives fewer keys than there are pieces. |
| ExpandedState.Decode | docs/api/kea/code.js:41 | A URL value decodes to at least one key. The keys are distinct and comma-free, and are exactly the `,`-separated pieces. |
| ExpandedState.DecodeEmpty | docs/api/kea/code.js:41 | The empty URL value decodes to the single section `""`. |
| ExpandedState.DecodeEncode | docs/api/kea/code.js:26-41 | A non-empty list of distinct, comma-free keys is recovered unchanged from the URL value written for it. |
| ExpandedState.EncodeDecode | docs/api/kea/code.js:38-42 | A URL value whose pieces are distinct is written back unchanged after it is decoded. |
| ExpandedState.UrlToAction | docs/api/kea/code.js:39-42 | `setExpanded` is dispatched exactly when the parameter is present and differs from the encoding of the current state, and its payload is the decoded parameter. |
| ExpandedState.NoFeedbackLoop | docs/api/kea/code.js:26-42 | Reading back the URL value written for a state dispatches nothing. |
| ExpandedState.UrlSyncSettles | docs/api/kea/code.js:39-42 | After the decoded state is in place, reading the same URL again dispatches nothing when the pieces are distinct. When a piece repeats, every read re-dispatches the decoded state. |
| ExpandedState.IntroCodeLogic.constructor | docs/api/kea/code.js:11-24 | The store starts from the given initial value, with distinct keys. |
| ExpandedState.IntroCodeLogic.Expand | docs/api/kea/code.js:26-31 | Dispatching `expand` applies the reducer and keeps the keys distinct. The URL value written is the new keys joined by `,`. |
| ExpandedState.IntroCodeLogic.Shrink | docs/api/kea/code.js:32-36 | Dispatching `shrink` applies the reducer and keeps the keys distinct. The URL value written is the new keys joined by `,`. |
| ExpandedState.IntroCodeLogic.SetExpanded | docs/api/kea/code.js:22 | Dispatching `setExpanded` replaces the store's value. |
| ExpandedState.IntroCodeLogic.ApplyUrl | docs/api/kea/code.js:38-44 | The store changes only when the parameter is present and differs from the current encoding, and then to its decoding. The URL it wrote itself leaves it unchanged. |
| ExpandedState.ExpandThenReadUrl | docs/api/kea/code.js:26-42 | `expand` followed by the URL round trip dispatches nothing further and leaves the expanded state. |
| JsBuiltins.Join | docs/api/kea/code.js:30 | Joining no parts gives `""`, and the first part starts the result. |
| JsBuiltins.JoinCountsSeparators | docs/api/kea/code.js:30 | When no part holds the separator, the joined string holds exactly one separator fewer than there are parts. |
| JsBuiltins.StringSplit | docs/api/kea/code.js:41 | `split` always gives at least one piece, and no piece holds the separator. |
| JsBuiltins.SplitJoin | docs/api/kea/code.js:41 | `split` undoes `join` for a non-empty list whose pieces hold no separator. |
| JsBuiltins.JoinSplit | docs/api/kea/code.js:30 | `join` undoes `split`. |
| JsBuiltins.Substring | docs/api/kea/code.js:152 | `substring` never grows the string. Within bounds it is the slice, with the arguments swapped when the start lies after the end. |
| JsBuiltins.Slice | src/components/intro/githubLogic.js:72 | `slice` never gives more than the array holds. Within bounds it is the sub-array between the two indices, and crossing non-negative indices give `[]`. |
| JsBuiltins.Trim | docs/api/kea/code.js:152 | `trim` never lengthens a string, and a non-empty result neither starts nor ends with whitespace. |
| JsBuiltins.TrimIsMiddle | docs/api/kea/code.js:152 | `trim` removes a whitespace prefix and a whitespace suffix, and what is left is the middle of the string unchanged. |
| JsBuiltins.TrimEmptyIffBlank | docs/api/kea/code.js:109 | `trim() === ''` holds exactly for strings made only of whitespace. |
| Tokenizer.MarkerCode | docs/api/kea/code.js:101 | The code of a marker of at least four characters is what lies between its first two and last two characters. It is never longer than the marker. |
| Tokenizer.Apply | docs/api/kea/code.js:73-105 | A colour rule shows the match itself. A label rule shows a label cut from the front of the match. A marker shows a Shrink or Expand button for the code it names: Shrink exactly when `expanded[code]` is truthy, that is, when the code is an own key or an inherited member of the object. |
| Tokenizer.FirstSplit | docs/api/kea/code.js:112-121 | The chosen rule splits the element into more than one part, and every earlier rule declined. A throw is reported only when errors are not caught. No rule is chosen only when all rules decline. |
| Tokenizer.FirstSplitSkips | docs/api/kea/code.js:112-121 | Rules that decline do not change which rule is chosen. |
| Tokenizer.Tokenize | docs/api/kea/code.js:108-111 | Beyond depth 3, or for a blank element, `split` returns the element unchanged. |
| Tokenizer.AllRulesDeclineKeepElement | docs/api/kea/code.js:112-140 | When every rule declines, `split` returns the element unchanged. |
| Tokenizer.RenderPart | docs/api/kea/code.js:123-136 | An odd part, a match, never throws and gives exactly one piece, the rule's rendering. |
| Tokenizer.TokenizeYieldsPieces | docs/api/kea/code.js:108-141 | Whatever the matcher answers, a `split` that does not throw gives at least one piece. |
| Tokenizer.RenderPartsYieldPieces | docs/api/kea/code.js:121-138 | The flattened `map` over the parts from index `i` (`RenderParts`) gives, when it does not throw, at least one piece per remaining part. |
| Tokenizer.Split | docs/api/kea/code.js:108-141 | `split` as written computes `Tokenize`. |
| Tokenizer.ChooseRule | docs/api/kea/code.js:112-121 | The loop over the rule table, with its try/catch and early exits, finds the rule `FirstSplit` chooses. |
| Tokenizer.RenderMatch | docs/api/kea/code.js:123-136 | One step of the `map` computes `RenderPart` for that part. |
| Tokenizer.RenderMatches | docs/api/kea/code.js:121-138 | The pass over the parts is `RenderParts`: even parts are recursed, odd parts rendered, and a throw in a part escapes. |
| Tokenizer.FirstSplittingRuleDecides | docs/api/kea/code.js:112-125 | When every earlier rule declines, the first rule that splits the element decides how it is rendered. |
| Tokenizer.CommentRuleWins | src/components/intro-code.js:49 | In both rule tables a line cut by `//.*` is rendered by that rule, in gray, whatever the later rules would do. |
| Tokenizer.UncaughtConstructionErrorEscapes | src/components/intro-code.js:81-84 | Without try/catch, a rule whose `RegExp` cannot be built makes `split` throw once the earlier rules have declined. |
| Tokenizer.CaughtConstructionErrorSkips | docs/api/kea/code.js:114-120 | With try/catch, a rule whose `RegExp` cannot be built is skipped and the next rule is tried. |
| Tokenizer.CaughtNeverThrows | src/components/intro/code.js:90-98 | With try/catch, `split` never throws at any depth, whatever the matcher does. |
| Tokenizer.RenderPartsCaughtNeverThrows | src/components/intro/code.js:99-116 | With try/catch, rendering the parts never throws. |
| Tokenizer.LabelRulesReemitMatch | src/components/intro/code.js:53-64 | The `label: (` and `label: async` rules render the label, which is the match without its last 2 or 5 characters, and that label plus the tail is the whole match. |
| Tokenizer.MarkerToggles | docs/api/kea/code.js:100-103 | A marker `#[name]#` names the section `name`. For a name that no object inherits, it renders Shrink exactly when that section is expanded, and Expand otherwise. For an inherited name such as `constructor` it renders Shrink even when nothing is expanded. |
| Tokenizer.ApplyEchoes | docs/api/kea/code.js:73-105 | Every rule renders a match of its shape as pieces that stand for (`Echo`) exactly the text they replace. A colour span and a label stand for their own text, and a marker's Shrink or Expand button stands for its `#[code]#`. |
| Tokenizer.TokenizeKeepsText | docs/api/kea/code.js:108-141 | When the matcher's parts spell the element, `split` loses and adds no text at any depth. Read through `Echo`, its pieces spell the element, each marker's button standing for its `#[code]#`. The displayed line is the element with each marker replaced by its button. |
| Tokenizer.RenderPartsKeepText | docs/api/kea/code.js:121-138 | Given a sound matcher, whose parts spell what they split, and odd parts of the rule's shape, the rendered parts from index `i` spell the concatenation of those parts. |
| Tokenizer.LeadingSpaces | docs/api/kea/code.js:144 | The count of leading spaces: all counted characters are spaces, and the next one is not. |
| Tokenizer.IndentReplaceLength | docs/api/kea/code.js:144 | `replace(..., '$1').length`: where the pattern matches, it counts exactly the leading spaces. Otherwise it is the whole length. |
| Tokenizer.IndentPatternMatchesExactly | docs/api/kea/code.js:144 | `/^( *)[^ ]*.*$/` matches, in some split of the line, exactly when the greedy split leaves no line terminator in the rest. |
| Tokenizer.LineTextAsWritten | docs/api/kea/code.js:144-152 | The text handed to `split` as written: `children.substring(numberOfSpaces).trim()`. It is never longer than the line, and a blank line gives `""`. |
| Tokenizer.LineTextAsWrittenWhenMatched | src/components/intro/code.js:122-130 | When the indent pattern matches, the text handed to `split` is the trimmed line. |
| Tokenizer.HalfIndentCut | src/components/intro/code.js:122-130 | Cutting half of the leading spaces, rounded down, and trimming equals trimming the line. |
| Tokenizer.LineTextAsWrittenDropsText | src/components/intro/code.js:122 | For `"  a b\nc"` the pattern fails. The whole length is halved, and `split` gets `"b\nc"` instead of `"a b\nc"`. |
| Tokenizer.LineText | src/components/intro-code.js:106-114 | The corrected text of the Findings row below, not what the source computes: the line with surrounding whitespace removed. |
| Tokenizer.RenderLine | docs/api/kea/code.js:152 | The line as written is `split` at depth 0 of `LineTextAsWritten`. A blank line renders as a single empty plain piece. Where the indent pattern matches, the line is rendered from its trimmed text. |
| Tokenizer.RenderLineCorrected | docs/api/kea/code.js:152 | The line rendered from the corrected `LineText`. It renders a blank line the same way and agrees with `RenderLine` wherever the indent pattern matches. |
| RepoSort.SortByStars | src/components/intro/githubLogic.js:67 | The array ends up ordered by star count, most first, as a permutation of what it held. The same selector is in docs/tutorials/github/index.js:33-37. |
| RepoSort.InsertNext | src/components/intro/githubLogic.js:67 | One step of the sort: given a sorted prefix `a[..i]`, it leaves `a[..i+1]` sorted and the contents a permutation of what they were. |
| GithubLogic.OpenPageDefaultShowsBlock | src/components/intro/githubLogic.js:10 | After `openPage(p)` with no page size, for any page from 1 on, the page size is 10 and the repositories shown are the `p`-th block of ten, cut at the end of the list. |
| GithubLogic.Reduce | src/components/intro/githubLogic.js:12-48 | For each action, the new state field by field; fields not mentioned are unchanged. `setUsername` stores the name and starts loading, keeping the error. `repositoriesLoaded` stores the list, stops loading and goes to page 1. `repositoryLoadError` stores the error and stops loading, keeping the list. `setUsernameFailure` stores the error. `openPage` stores the page and the page size. |
| GithubLogic.LoadingIffAwaiting | src/components/intro/githubLogic.js:26-33 | From the initial state, `repositoriesLoading` holds after a sequence of actions exactly when some `setUsername` has not yet been followed by `repositoriesLoaded` or `repositoryLoadError`. |
| GithubLogic.RepositoriesForPage | src/components/intro/githubLogic.js:69-74 | A page never holds more repositories than the list, nor more than `perPage` for a positive page size. |
| GithubLogic.PageIsBlock | src/components/intro/githubLogic.js:69-74 | For page size > 0 and page ≥ 1, the page is the block of indices from `perPage*(page-1)` to `perPage*page`, cut at the end of the list. It holds at most `perPage` repositories. |
| GithubLogic.PageZeroEmpty | src/components/intro/githubLogic.js:72 | Page 0 is empty. |
| GithubLogic.Pages | src/components/intro/githubLogic.js:75 | A page size of 0 gives `NaN` for an empty list and `Infinity` otherwise. Any other page size gives a number. |
| GithubLogic.PagesIsCeiling | src/components/intro/githubLogic.js:75 | For page size > 0 the page count `n` is 0 exactly for the empty list, and `(n-1)*perPage < len ≤ n*perPage`. |
| GithubLogic.PageNonEmptyIffInRange | src/components/intro/githubLogic.js:69-75 | For page ≥ 0, a page is non-empty exactly when it lies between 1 and the page count. |
| GithubLogic.PagesPartitionList | src/components/intro/githubLogic.js:69-75 | Pages 1 to `pages`, read in turn, give back the whole list, each repository once and in order. |
| GithubLogic.EarlierPagesHaveMoreStars | src/components/intro/githubLogic.js:65-74 | On the sorted list, every repository on an earlier page has at least as many stars as every repository on a later page. |
| GithubLogic.IsLoadingIffPending | src/components/intro/githubLogic.js:76-79 | From the initial state, `isLoading` holds exactly while a `setUsername` still awaits its outcome or the user lookup is loading. |
| GithubLogic.LoadedShowsFirstPage | src/components/intro/githubLogic.js:23-74 | After `repositoriesLoaded(r)` the page shown is page 1 of `sortedRepositories`, that is, of `r` ordered by stars as `RepoSort.SortByStars` promises. It holds the first `min(perPage, len)` repositories of the sorted list, all drawn from `r`, and none has fewer stars than a repository off the page. The demo is loading only while the user lookup is. |
| GithubTutorial.Reduce | docs/tutorials/github/index.js:13-30 | `setUsername` starts a fresh search: the new name, an empty list, no error, loading. `setRepositories` stores the list and stops loading, keeping the name and the error. `setFetchError` stores the error and stops loading, keeping the name and the list. |
| GithubTutorial.MountedCopiesAgree | src/components/tutorials/github/4-event/index.js:21-49 | The two copies' initial states differ only in `isLoading`. After the mount-time `setUsername(values.username)` both are in the same state. |
| GithubTutorial.SearchPendingUntilOutcome | docs/tutorials/github/index.js:15-28 | After a `setUsername`, and for as long as only more `setUsername`s follow, the list is empty, there is no error, the logic is loading, and the name is the last one set. |
| GithubTutorial.OutcomeStopsLoading | src/components/tutorials/github/4-event/index.js:21-25 | `setRepositories` and `setFetchError` stop loading, whatever the state was. |
| GithubTutorial.ListenerOutcome | docs/tutorials/github/index.js:58-62 | The listener dispatches `setRepositories(json)` exactly when the status is 200. Otherwise it dispatches `setFetchError(json.message)`, and dispatches nothing when reading `message` of a `null` body throws. |
| GithubTutorial.SearchCycle | src/components/tutorials/github/4-event/index.js:33-43 | `setUsername(u)` followed by the listener's dispatch ends idle under the name `u`. On status 200 it holds the body and no error; otherwise it holds no list and the body's `message` as the error. |
| JsValues.Or | src/components/intro/githubApi.js:14 | `a \|\| b` is `a` when `a` is truthy, else `b`. |
| JsValues.Member | src/components/intro/githubApi.js:12 | Reading a property throws exactly on `null` or `undefined`. On an object it is the property's value, or `undefined` when the property is absent. |
| GithubApi.Stored | src/components/intro/githubApi.js:12 | On status 200 the body is stored. Otherwise an object whose only key is `error` is stored, holding the body's `message`. Nothing is stored, because of a throw, exactly when a failed response has a `null` body. |
| GithubApi.CachedFetch | src/components/intro/githubApi.js:7-15 | A fetch happens, of the given URL, exactly when the key is not cached. A cached key leaves the cache alone and returns the stored value or the fallback. An uncached key stores what the response gives, unless reading it throws. |
| GithubApi.RepeatedCallIsCached | src/components/intro/githubApi.js:8-14 | Once a call has returned, its key is cached, and a later call fetches nothing, changes nothing and returns the same value. |
| GithubApi.FailureIsCached | src/components/intro/githubApi.js:12 | A failed response whose body has a `message` field, whatever other fields it holds, is cached and returned as `{ error: message }`. |
| GithubApi.OtherKeysUntouched | src/components/intro/githubApi.js:8-13 | A call for one user leaves every other cached user's entry as it was. |
| GithubApi.ApiCache.constructor | src/components/intro/githubApi.js:3-4 | Both caches start empty. |
| GithubApi.ApiCache.GetUser | src/components/intro/githubApi.js:7-15 | `getUser` is `CachedFetch` on `usersCache` with `/users/{user}` and fallback `null`, and leaves `repoCache` unchanged. |
| GithubApi.ApiCache.GetRepositories | src/components/intro/githubApi.js:16-24 | `getRepositories` is `CachedFetch` on `repoCache` with `/users/{user}/repos?per_page=250` and fallback `[]`, and leaves `usersCache` unchanged. |
| GithubApi.RepositoriesTwice | src/components/intro/githubApi.js:16-24 | Two calls for the same user, the second made after the first has finished, fetch at most once and answer the same once the first call has returned. For a user already cached they fetch nothing and change nothing. |

## Left out

- Regular-expression semantics: the rule patterns are kept as text, and matching is an oracle parameter. Lookbehind support, the capture-group behaviour of `String.prototype.split` and the exact languages of the patterns are not modelled.
- Tokenizer.TokenizeKeepsText and Tokenizer.RenderPartsKeepText: assume the matcher's parts spell the element and that matches have the rule's shape, rather than deriving this from the patterns. The marker pattern `#[[a-zA-Z]+]#` is, read literally, `#` followed by a class of `[` and letters and then `]#`. The model uses the intended shape `#[name]#`.
- ExpandedState.EncodeDecode and ExpandedState.UrlSyncSettles: these hold in the program only when no piece is an array index ("0", "1", …). `Object.keys` lists array-index keys first, in ascending order, and the other keys in insertion order. The model keeps insertion order for all keys, which matches the program for the letter-only names markers create. The `expanded` hash value can hold any string, though. For `expanded=2,1` the program writes back "1,2", so every read of that URL re-dispatches, while the model writes back "2,1".
- `split`'s `typeof element !== 'string'` test: only strings are ever passed in, so the case is not modelled. Also left out are the React `key` counters, the `flat(Infinity)` nesting (the output is kept flat) and the JSX markup around the pieces.
- The em-based margin and indent computation (`5.7 * 0.6`, `numberOfSpaces * 0.6`) is floating point and is not part of this model.
- Rendering, `githubComponent.js`, the site pages and the other presentational files are not part of this model.
- Kea internals are not modelled: action dispatch, `breakpoint` debouncing, the `loaders` plugin (`userLoading` is an input to `GithubLogic.IsLoading`), `events` with `setInterval`, and kea-router's history handling.
- The `listeners` of `githubLogic`, including the `openPage` console log, are not part of this model.
- The `downcase` reducer calls `state.toLoweCase()`, which does not exist, so it throws. It is not modelled.
- GithubApi.ApiCache.GetUser, GithubApi.ApiCache.GetRepositories and GithubApi.RepositoriesTwice: each call runs to completion before the next starts. In the source both functions `await` between the `has` test and the `set`. Two overlapping calls for the same uncached user therefore both fetch, and the later `set` wins. That interleaving is not modelled.
- Strings are sequences of Unicode code points. JavaScript's `length` and `substring` count UTF-16 code units, so a character outside the Basic Multilingual Plane, such as an emoji, counts once here and twice there. On the path where the indent pattern fails, `Tokenizer.LineTextAsWritten` halves the length, so it cuts at a different place for such lines than the source does.
- `window.fetch` and `response.json()` are network I/O. Their results are passed in as a `Response`. A body that is not JSON, and a rejected fetch, are not modelled.
- JsValues.Member: models own properties of objects only. An array's own `length` and all inherited members read as `undefined`.
- GithubLogic.Reduce: error payloads are strings. The reducers store whatever they are given.
- GithubLogic.PageNonEmptyIffInRange: stated for page ≥ 0. For a negative page `slice` counts from the end of the list, which the model computes (`JsBuiltins.Slice`) but states nothing about.
- RepoSort.SortByStars: star counts are integers. Stability, and comparisons on missing or `NaN` star counts, are left out. Aliasing is not modelled: the selector sorts the reducer's own array.

## Findings

| source | as written | input that shows it | evidently intended | confidence | as-written member | corrected member |
|---|---|---|---|---|---|---|
| src/components/intro/code.js:122 (same at docs/api/kea/code.js:144 and src/components/intro-code.js:106) | `children.replace(/^( *)[^ ]*.*$/, '$1').length / 2` counts the leading spaces only when the pattern matches. `.` does not match a line terminator, so when a space comes before a line break the pattern fails. The whole length is then halved and `substring` cuts into visible text. | `"  a b\nc"`: `split` gets `"b\nc"` instead of `"a b\nc"` | Half the number of leading spaces, so that the cut removes only indentation and the text handed to `split` is the trimmed line | not executed | Tokenizer.LineTextAsWrittenDropsText | Tokenizer.LineText |

=== FILE: expanded_state.dfy ===
/**
 * The `expanded` value of `introCodeLogic`: which sections of the interactive
 * code widget are open. A JavaScript object whose every key maps to `true`
 * is represented by its keys in `Object.keys` order, without repeats.
 *
 * The four copies of the logic share the same `expand` and `shrink`
 * reducers and differ in the initial value; the copy on the API page also
 * has `setExpanded` and keeps the value in the page URL's `expanded`
 * hash parameter, written as the keys joined by `,`; the search parameters
 * pass through unchanged.
 */
module ExpandedState {
  import opened JsBuiltins

  predicate Distinct(keys: seq<string>)
  {
    forall i, j :: 0 <= i < j < |keys| ==> keys[i] != keys[j]
  }

  /** `code` is one of the object's own keys, each of which maps to `true`. */
  predicate IsExpanded(keys: seq<string>, code: string)
  {
    code in keys
  }

  // ---------------------------------------------------------------------------
  // Initial values of the four copies

  /** docs/api/kea/code.js and src/components/intro-code.js, src/pages/intro-code.js: `{}`. */
  const EmptyInitial: seq<string> := []

  /** src/components/intro/code.js: `{ component: true }`. */
  const ComponentInitial: seq<string> := ["component"]

  lemma InitialValues()
    ensures Distinct(EmptyInitial) && Distinct(ComponentInitial)
    ensures forall code :: !IsExpanded(EmptyInitial, code)
    ensures forall code :: IsExpanded(ComponentInitial, code) <==> code == "component"
  {
  }

  // ---------------------------------------------------------------------------
  // Reducers

  /**
   * `expand`: `{ ...state, [code]: true }`. An existing key keeps its place;
   * a new one goes last.
   */
  function ReduceExpand(state: seq<string>, code: string): (r: seq<string>)
    ensures state <= r && |r| <= |state| + 1
    ensures IsExpanded(r, code)
    ensures forall k :: IsExpanded(r, k) <==> IsExpanded(state, k) || k == code
    ensures Distinct(state) ==> Distinct(r)
  {
    if code in state then state else state + [code]
  }

  /** `shrink`: `const { [code]: _discard, ...rest } = state; return rest`. */
  function ReduceShrink(state: seq<string>, code: string): (r: seq<string>)
    ensures |r| <= |state|
    ensures !IsExpanded(r, code)
    ensures forall k :: k != code ==> (k in r <==> k in state)
    decreases |state|
  {
    if |state| == 0 then []
    else
      (if state[0] == code then [] else [state[0]]) + ReduceShrink(state[1..], code)
  }

  /** `setExpanded`: the payload replaces the state, whatever it was. */
  function ReduceSetExpanded(state: seq<string>, expanded: seq<string>): (r: seq<string>)
    ensures forall k :: IsExpanded(r, k) <==> IsExpanded(expanded, k)
  {
    expanded
  }

  /** Expanding a section that is already open changes nothing; so expanding twice is expanding once. */
  lemma ExpandIdempotent(state: seq<string>, code: string)
    ensures ReduceExpand(state, code) == ReduceExpand(ReduceExpand(state, code), code)
    ensures IsExpanded(state, code) ==> ReduceExpand(state, code) == state
  {
  }

  /** Shrinking a section that is not open leaves the state exactly as it was. */
  lemma {:induction false} ShrinkAbsent(state: seq<string>, code: string)
    requires !IsExpanded(state, code)
    ensures ReduceShrink(state, code) == state
    decreases |state|
  {
    if |state| > 0 {
      ShrinkAbsent(state[1..], code);
      assert [state[0]] + state[1..] == state;
    }
  }

  /** Shrinking removes the one key and keeps the others in their order. */
  lemma {:induction false} ShrinkRemovesOne(state: seq<string>, code: string, i: nat)
    requires Distinct(state)
    requires i < |state| && state[i] == code
    ensures ReduceShrink(state, code) == state[..i] + state[i + 1..]
    ensures Distinct(ReduceShrink(state, code))
    decreases i
  {
    if i == 0 {
      ShrinkAbsent(state[1..], code);
    } else {
      ShrinkRemovesOne(state[1..], code, i - 1);
      assert state[1..][..i - 1] == state[1..i];
      assert state[1..][i..] == state[i + 1..];
      assert [state[0]] + state[1..i] == state[..i];
    }
  }

  /** Shrinking undoes an expand of a section that was closed. */
  lemma ShrinkUndoesExpand(state: seq<string>, code: string)
    requires Distinct(state) && !IsExpanded(state, code)
    ensures ReduceShrink(ReduceExpand(state, code), code) == state
  {
    var r := ReduceExpand(state, code);
    ShrinkRemovesOne(r, code, |state|);
    assert r[..|state|] == state;
  }

  // ---------------------------------------------------------------------------
  // URL encoding (docs/api/kea/code.js)

  /**
   * `Object.keys(values.expanded).join(',')`: no section gives "", and
   * comma-free keys are written with exactly one comma between neighbours.
   */
  function Encode(keys: seq<string>): (r: string)
    ensures keys == [] ==> r == ""
    ensures |keys| >= 1 && (forall i :: 0 <= i < |keys| ==> ',' !in keys[i]) ==>
              keys[0] <= r && multiset(r)[','] == |keys| - 1
  {
    if |keys| >= 1 && (forall i :: 0 <= i < |keys| ==> ',' !in keys[i]) then
      JoinCountsSeparators(keys, ',');
      Join(keys, ',')
    else Join(keys, ',')
  }

  /**
   * `Object.fromEntries(pieces.map((e) => [e, true]))`, as keys: a repeated
   * key keeps the place of its first occurrence.
   */
  function FromEntries(pieces: seq<string>): (keys: seq<string>)
    ensures Distinct(keys)
    ensures forall k :: k in keys <==> k in pieces
    ensures |keys| <= |pieces|
    decreases |pieces|
  {
    if |pieces| == 0 then []
    else
      var front := FromEntries(pieces[..|pieces| - 1]);
      var last := pieces[|pieces| - 1];
      assert pieces == pieces[..|pieces| - 1] + [last];
      if last in front then front else front + [last]
  }

  lemma {:induction false} FromEntriesOfDistinct(pieces: seq<string>)
    requires Distinct(pieces)
    ensures FromEntries(pieces) == pieces
    decreases |pieces|
  {
    if |pieces| > 0 {
      var n := |pieces| - 1;
      FromEntriesOfDistinct(pieces[..n]);
      assert pieces[n] !in pieces[..n];
      assert pieces[..n] + [pieces[n]] == pieces;
    }
  }

  /** A repeated piece gives fewer keys than there are pieces. */
  lemma {:induction false} FromEntriesDropsRepeats(pieces: seq<string>)
    requires !Distinct(pieces)
    ensures |FromEntries(pieces)| < |pieces|
    decreases |pieces|
  {
    var n := |pieces| - 1;
    var front := pieces[..n];
    var last := pieces[n];
    if last !in FromEntries(front) {
      assert last !in front;
      assert !Distinct(front) by {
        var i, j :| 0 <= i < j < |pieces| && pieces[i] == pieces[j];
        assert front[i] == pieces[i];
        assert j < n;
        assert front[i] == front[j];
      }
      FromEntriesDropsRepeats(front);
    }
  }

  /** `Object.fromEntries(expanded.split(',').map((e) => [e, true]))`. */
  function Decode(s: string): (keys: seq<string>)
    ensures |keys| >= 1 && Distinct(keys)
    ensures forall k :: IsExpanded(keys, k) <==> k in StringSplit(s, ',')
    ensures forall k :: IsExpanded(keys, k) ==> ',' !in k
  {
    FromEntries(StringSplit(s, ','))
  }

  /** An empty `expanded` parameter opens the section named "". */
  lemma DecodeEmpty()
    ensures Decode("") == [""]
  {
    assert StringSplit("", ',') == [""];
  }

  /** A non-empty list of distinct, comma-free keys survives the trip through the URL. */
  lemma DecodeEncode(keys: seq<string>)
    requires |keys| >= 1 && Distinct(keys)
    requires forall i :: 0 <= i < |keys| ==> ',' !in keys[i]
    ensures Decode(Encode(keys)) == keys
  {
    SplitJoin(keys, ',');
    FromEntriesOfDistinct(keys);
  }

  /** A URL value whose pieces are distinct is written back unchanged after decoding. */
  lemma EncodeDecode(s: string)
    requires Distinct(StringSplit(s, ','))
    ensures Encode(Decode(s)) == s
  {
    FromEntriesOfDistinct(StringSplit(s, ','));
    JoinSplit(s, ',');
  }

  /**
   * `urlToAction` for `/docs/api/kea`: the `setExpanded` payload to dispatch,
   * or None when the parameter is absent or already equals the encoding of the
   * current state.
   */
  function UrlToAction(current: seq<string>, param: Option<string>): (r: Option<seq<string>>)
    ensures r.Some? <==> param.Some? && param.value != Encode(current)
    ensures r.Some? ==> r.value == Decode(param.value)
  {
    match param
    case None => None
    case Some(s) => if Encode(current) == s then None else Some(Decode(s))
  }

  /** Reading back the URL that `actionToUrl` wrote for a state dispatches nothing. */
  lemma NoFeedbackLoop(state: seq<string>)
    ensures UrlToAction(state, Some(Encode(state))) == None
  {
  }

  /**
   * The URL-to-state direction settles after one step: once the decoded state
   * is in place, reading the same URL again dispatches nothing, unless the
   * URL names a section twice; then every read re-dispatches the same state,
   * because the encoding of the decoded state has fewer commas than the URL.
   */
  lemma UrlSyncSettles(s: string)
    ensures Distinct(StringSplit(s, ',')) ==> UrlToAction(Decode(s), Some(s)) == None
    ensures !Distinct(StringSplit(s, ',')) ==> UrlToAction(Decode(s), Some(s)) == Some(Decode(s))
  {
    var pieces := StringSplit(s, ',');
    if Distinct(pieces) {
      EncodeDecode(s);
    } else {
      var keys := Decode(s);
      FromEntriesDropsRepeats(pieces);
      JoinSplit(s, ',');
      JoinCountsSeparators(pieces, ',');
      assert multiset(Encode(keys))[','] == |keys| - 1;
      assert multiset(s)[','] == |pieces| - 1;
    }
  }

  // ---------------------------------------------------------------------------
  // The store

  /** The `expanded` reducer of one mounted `introCodeLogic`. */
  class IntroCodeLogic {
    var expanded: seq<string>

    ghost predicate Valid()
      reads this
    {
      Distinct(expanded)
    }

    constructor (initial: seq<string>)
      requires Distinct(initial)
      ensures Valid() && expanded == initial
    {
      expanded := initial;
    }

    /** Dispatches `expand(code)`; returns the `expanded` URL value `actionToUrl` then writes. */
    method Expand(code: string) returns (url: string)
      requires Valid()
      modifies this
      ensures Valid()
      ensures expanded == ReduceExpand(old(expanded), code)
      ensures url == Encode(expanded)
    {
      expanded := ReduceExpand(expanded, code);
      url := Encode(expanded);
    }

    /** Dispatches `shrink(code)`; returns the `expanded` URL value `actionToUrl` then writes. */
    method Shrink(code: string) returns (url: string)
      requires Valid()
      modifies this
      ensures Valid()
      ensures expanded == ReduceShrink(old(expanded), code)
      ensures url == Encode(expanded)
    {
      if code in expanded {
        var i :| 0 <= i < |expanded| && expanded[i] == code;
        ShrinkRemovesOne(expanded, code, i);
      } else {
        ShrinkAbsent(expanded, code);
      }
      expanded := ReduceShrink(expanded, code);
      url := Encode(expanded);
    }

    /** Dispatches `setExpanded(keys)`. */
    method SetExpanded(keys: seq<string>)
      requires Valid() && Distinct(keys)
      modifies this
      ensures Valid() && expanded == keys
    {
      expanded := ReduceSetExpanded(expanded, keys);
    }

    /** Runs `urlToAction` for the current `expanded` hash parameter. */
    method ApplyUrl(param: Option<string>) returns (dispatched: bool)
      requires Valid()
      modifies this
      ensures Valid()
      ensures dispatched <==> param.Some? && param.value != Encode(old(expanded))
      ensures expanded == (if dispatched then Decode(param.value) else old(expanded))
      ensures param == Some(Encode(old(expanded))) ==> expanded == old(expanded)
    {
      var action := UrlToAction(expanded, param);
      dispatched := action.Some?;
      if dispatched {
        SetExpanded(action.value);
      }
    }
  }

  /** After expanding, the URL written is read back without any further dispatch. */
  method ExpandThenReadUrl(logic: IntroCodeLogic, code: string) returns (dispatched: bool)
    requires logic.Valid()
    modifies logic
    ensures logic.Valid() && !dispatched
    ensures logic.expanded == ReduceExpand(old(logic.expanded), code)
  {
    var url := logic.Expand(code);
    dispatched := logic.ApplyUrl(Some(url));
  }
}

=== FILE: github_api.dfy ===
/**
 * `api` of the front page demo: `getUser` and `getRepositories` memoise the
 * GitHub responses per user name in two module-level `Map`s. The network is
 * not part of this model: the response `fetch` would give is an input, and
 * the URL it would be asked for is an output.
 */
module GithubApi {
  import opened JsBuiltins
  import opened JsValues

  /**
   * `response.status === 200 ? json : { error: json.message }`: the value put
   * in the cache, or None when reading `json.message` throws.
   */
  function Stored(response: Response): (r: Option<JsValue>)
    ensures response.status == 200 ==> r == Some(response.body)
    ensures r.None? <==> response.status != 200 && (response.body.Null? || response.body.Undefined?)
    ensures response.status != 200 && r.Some? ==>
      r.value.Object? && r.value.fields.Keys == {"error"}
      && Some(r.value.fields["error"]) == Member(response.body, "message")
  {
    if response.status == 200 then Some(response.body)
    else
      match Member(response.body, "message")
      case None => None
      case Some(message) => Some(Object(map["error" := message]))
  }

  const ApiUrl: string := "https://api.github.com"

  function UserUrl(user: string): string
  {
    ApiUrl + "/users/" + user
  }

  function ReposUrl(user: string): string
  {
    ApiUrl + "/users/" + user + "/repos?per_page=250"
  }

  /** The effect of one memoised call: the new cache, the URL fetched if any, and the value returned (None when the call throws). */
  datatype Lookup = Lookup(cache: map<string, JsValue>, fetched: Option<string>, result: Option<JsValue>)

  /**
   * One call of `getUser`/`getRepositories`: fetch `url` only when `key` is
   * not cached, store what `Stored` makes of the response, and return the
   * stored value or `fallback` when that value is falsy.
   */
  function CachedFetch(cache: map<string, JsValue>, key: string, url: string, response: Response, fallback: JsValue): (r: Lookup)
    ensures r.fetched.Some? <==> key !in cache
    ensures r.fetched.Some? ==> r.fetched.value == url
    ensures key in cache ==> r.cache == cache && r.result == Some(Or(cache[key], fallback))
    ensures key !in cache && Stored(response).Some? ==>
      r.cache == cache[key := Stored(response).value] && r.result == Some(Or(Stored(response).value, fallback))
    ensures key !in cache && Stored(response).None? ==> r.cache == cache && r.result.None?
  {
    if key in cache then Lookup(cache, None, Some(Or(cache[key], fallback)))
    else
      match Stored(response)
      case None => Lookup(cache, Some(url), None)
      case Some(v) => Lookup(cache[key := v], Some(url), Some(Or(v, fallback)))
  }

  /** Once a call has returned, the key is cached, and every later call fetches nothing, changes nothing and returns the same value. */
  lemma RepeatedCallIsCached(cache: map<string, JsValue>, key: string, url: string, first: Response, later: Response, url2: string, fallback: JsValue)
    requires CachedFetch(cache, key, url, first, fallback).result.Some?
    ensures var r1 := CachedFetch(cache, key, url, first, fallback);
      var r2 := CachedFetch(r1.cache, key, url2, later, fallback);
      key in r1.cache && r2.fetched.None? && r2.cache == r1.cache && r2.result == r1.result
  {
  }

  /** A failed response whose body has a `message` field, whatever else it holds, is cached and returned as `{ error: message }`. */
  lemma FailureIsCached(cache: map<string, JsValue>, key: string, url: string, response: Response, message: string, fallback: JsValue)
    requires key !in cache && response.status != 200
    requires response.body.Object? && "message" in response.body.fields
    requires response.body.fields["message"] == Str(message)
    ensures var r := CachedFetch(cache, key, url, response, fallback);
      r.cache == cache[key := Object(map["error" := Str(message)])]
      && r.result == Some(Object(map["error" := Str(message)]))
  {
  }

  /** Calls for other keys leave a cached entry alone. */
  lemma OtherKeysUntouched(cache: map<string, JsValue>, key: string, other: string, url: string, response: Response, fallback: JsValue)
    requires other != key && other in cache
    ensures var r := CachedFetch(cache, key, url, response, fallback);
      other in r.cache && r.cache[other] == cache[other]
  {
  }

  /** The two caches of the `api` object. */
  class ApiCache {
    var usersCache: map<string, JsValue>
    var repoCache: map<string, JsValue>

    constructor ()
      ensures usersCache == map[] && repoCache == map[]
    {
      usersCache := map[];
      repoCache := map[];
    }

    /** `getUser(user)`: looks in `usersCache` only; falls back to `null`. */
    method GetUser(user: string, response: Response) returns (fetched: Option<string>, result: Option<JsValue>)
      modifies this
      ensures var r := CachedFetch(old(usersCache), user, UserUrl(user), response, Null);
        usersCache == r.cache && fetched == r.fetched && result == r.result
      ensures repoCache == old(repoCache)
    {
      fetched := None;
      if user !in usersCache {
        fetched := Some(UserUrl(user));
        var stored := Stored(response);
        if stored.None? {
          return fetched, None;
        }
        usersCache := usersCache[user := stored.value];
      }
      result := Some(Or(usersCache[user], Null));
    }

    /** `getRepositories(user)`: looks in `repoCache` only; falls back to `[]`. */
    method GetRepositories(user: string, response: Response) returns (fetched: Option<string>, result: Option<JsValue>)
      modifies this
      ensures var r := CachedFetch(old(repoCache), user, ReposUrl(user), response, Array([]));
        repoCache == r.cache && fetched == r.fetched && result == r.result
      ensures usersCache == old(usersCache)
    {
      fetched := None;
      if user !in repoCache {
        fetched := Some(ReposUrl(user));
        var stored := Stored(response);
        if stored.None? {
          return fetched, None;
        }
        repoCache := repoCache[user := stored.value];
      }
      result := Some(Or(repoCache[user], Array([])));
    }
  }

  /** Asking twice for the same user's repositories fetches once and answers the same both times, once the first call has returned. */
  method RepositoriesTwice(api: ApiCache, user: string, first: Response, second: Response)
    returns (fetches: seq<string>, r1: Option<JsValue>, r2: Option<JsValue>)
    modifies api
    ensures r1.Some? ==> r2 == r1 && |fetches| <= 1
    ensures user in old(api.repoCache) ==> fetches == [] && api.repoCache == old(api.repoCache)
    ensures api.usersCache == old(api.usersCache)
  {
    var f1, f2;
    f1, r1 := api.GetRepositories(user, first);
    f2, r2 := api.GetRepositories(user, second);
    fetches := (if f1.Some? then [f1.value] else []) + (if f2.Some? then [f2.value] else []);
  }
}

=== FILE: github_logic.dfy ===
/**
 * `githubLogic` of the front page demo: the reducers `username`,
 * `repositories`, `repositoriesLoading`, `error`, `page` and `perPage`, and
 * the selectors `repositoriesForPage`, `pages` and `isLoading`. The
 * `sortedRepositories` selector is `RepoSort.SortByStars`.
 */
module GithubLogic {
  import opened JsBuiltins
  import opened RepoSort

  datatype State = State(
    username: string,
    repositories: seq<Repo>,
    repositoriesLoading: bool,
    error: Option<string>,
    page: int,
    perPage: int)

  /** The actions the reducers respond to. `setUsernameFailure` comes from the `user` loader. */
  datatype Action =
    | SetUsername(username: string)
    | RepositoriesLoaded(repositories: seq<Repo>)
    | RepositoryLoadError(error: string)
    | SetUsernameFailure(error: string)
    | OpenPage(page: int, perPage: int)

  const DefaultPerPage: int := 10

  /** Every reducer's default value. */
  const Initial: State := State("keajs", [], false, None, 1, DefaultPerPage)

  /** The `openPage(page, perPage = 10)` action creator. */
  function OpenPageAction(page: int, perPage: Option<int>): (a: Action)
    ensures a.OpenPage? && a.page == page
    ensures perPage.None? ==> a.perPage == 10
    ensures perPage.Some? ==> a.perPage == perPage.value
  {
    OpenPage(page, if perPage.Some? then perPage.value else DefaultPerPage)
  }

  /** `openPage(p)` without a page size shows the `p`-th block of ten repositories, cut at the end of the list. */
  lemma OpenPageDefaultShowsBlock(s: State, repos: seq<Repo>, p: int)
    requires p >= 1
    ensures var r := Reduce(s, OpenPageAction(p, None));
      r.perPage == 10 && r.page == p
      && RepositoriesForPage(repos, r.page, r.perPage) == repos[Min(10 * (p - 1), |repos|)..Min(10 * p, |repos|)]
  {
    PageIsBlock(repos, p, 10);
  }

  /** All six reducers applied to one action. */
  function Reduce(s: State, a: Action): (r: State)
    // setUsername: the name is stored and loading starts; the old error stays.
    ensures a.SetUsername? ==> r == s.(username := a.username, repositoriesLoading := true)
    // repositoriesLoaded: the list is stored, loading stops, the first page is shown.
    ensures a.RepositoriesLoaded? ==>
      r == s.(repositories := a.repositories, repositoriesLoading := false, page := 1)
    // repositoryLoadError: the error is stored and loading stops; the old list stays.
    ensures a.RepositoryLoadError? ==> r == s.(error := Some(a.error), repositoriesLoading := false)
    ensures a.SetUsernameFailure? ==> r == s.(error := Some(a.error))
    ensures a.OpenPage? ==> r == s.(page := a.page, perPage := a.perPage)
  {
    match a
    case SetUsername(u) => s.(username := u, repositoriesLoading := true)
    case RepositoriesLoaded(repos) => s.(repositories := repos, repositoriesLoading := false, page := 1)
    case RepositoryLoadError(e) => s.(error := Some(e), repositoriesLoading := false)
    case SetUsernameFailure(e) => s.(error := Some(e))
    case OpenPage(p, pp) => s.(page := p, perPage := pp)
  }

  /** The state after dispatching a sequence of actions, in order. */
  function Run(s: State, trace: seq<Action>): State
    decreases |trace|
  {
    if |trace| == 0 then s else Reduce(Run(s, trace[..|trace| - 1]), trace[|trace| - 1])
  }

  predicate EndsLoading(a: Action)
  {
    a.RepositoriesLoaded? || a.RepositoryLoadError?
  }

  /** Some `setUsername` has not yet been answered by `repositoriesLoaded` or `repositoryLoadError`. */
  predicate AwaitingRepositories(trace: seq<Action>)
  {
    exists i :: 0 <= i < |trace| && trace[i].SetUsername?
      && forall j :: i < j < |trace| ==> !EndsLoading(trace[j])
  }

  /**
   * From the initial state, `repositoriesLoading` is true exactly when a
   * `setUsername` is still waiting for its outcome.
   */
  lemma {:induction false} LoadingIffAwaiting(trace: seq<Action>)
    ensures Run(Initial, trace).repositoriesLoading <==> AwaitingRepositories(trace)
    decreases |trace|
  {
    if |trace| > 0 {
      var front := trace[..|trace| - 1];
      var last := trace[|trace| - 1];
      LoadingIffAwaiting(front);
      if last.SetUsername? {
        assert AwaitingRepositories(trace) by {
          assert trace[|trace| - 1].SetUsername?;
        }
      } else if EndsLoading(last) {
        assert !AwaitingRepositories(trace);
      } else {
        if AwaitingRepositories(front) {
          var i :| 0 <= i < |front| && front[i].SetUsername?
            && forall j :: i < j < |front| ==> !EndsLoading(front[j]);
          assert trace[i] == front[i];
          assert forall j :: i < j < |trace| ==> !EndsLoading(trace[j]) by {
            forall j | i < j < |trace| ensures !EndsLoading(trace[j]) {
              if j < |front| { assert trace[j] == front[j]; }
            }
          }
        }
        if AwaitingRepositories(trace) {
          var i :| 0 <= i < |trace| && trace[i].SetUsername?
            && forall j :: i < j < |trace| ==> !EndsLoading(trace[j]);
          assert i < |front|;
          assert front[i] == trace[i];
          assert forall j :: i < j < |front| ==> !EndsLoading(front[j]) by {
            forall j | i < j < |front| ensures !EndsLoading(front[j]) {
              assert front[j] == trace[j];
            }
          }
        }
      }
    }
  }

  // ---------------------------------------------------------------------------
  // Selectors

  /**
   * `repos.slice(perPage * (page - 1), perPage * page)`, where `repos` is
   * `sortedRepositories`: a page never holds more than `perPage` repositories.
   */
  function RepositoriesForPage(repos: seq<Repo>, page: int, perPage: int): (r: seq<Repo>)
    ensures |r| <= |repos|
    ensures perPage > 0 ==> |r| <= perPage
  {
    Slice(repos, perPage * (page - 1), perPage * page)
  }

  function Min(x: int, y: int): int
  {
    if x <= y then x else y
  }

  /** For a positive page size and a page from 1 on, the page is the block of `perPage` items it names, cut at the end of the list. */
  lemma PageIsBlock(repos: seq<Repo>, page: int, perPage: int)
    requires perPage > 0 && page >= 1
    ensures 0 <= perPage * (page - 1) <= perPage * page
    ensures RepositoriesForPage(repos, page, perPage)
      == repos[Min(perPage * (page - 1), |repos|)..Min(perPage * page, |repos|)]
    ensures |RepositoriesForPage(repos, page, perPage)| <= perPage
  {
    assert perPage * page == perPage * (page - 1) + perPage;
    assert perPage * (page - 1) >= 0;
  }

  /** Page 0 is always empty. */
  lemma PageZeroEmpty(repos: seq<Repo>, perPage: int)
    requires perPage > 0
    ensures RepositoriesForPage(repos, 0, perPage) == []
  {
  }

  /** The result of `Math.ceil(len / perPage)`, which is not finite when `perPage` is 0. */
  datatype PageCount = Count(n: int) | Infinite | NotANumber

  /** `Math.ceil(repos.length / perPage)`. */
  function Pages(repos: seq<Repo>, perPage: int): (r: PageCount)
    ensures perPage == 0 ==> (if |repos| == 0 then r == NotANumber else r == Infinite)
    ensures perPage != 0 ==> r.Count?
  {
    var len := |repos|;
    if perPage > 0 then Count((len + perPage - 1) / perPage)
    else if perPage < 0 then Count(-(len / -perPage))
    else if len == 0 then NotANumber
    else Infinite
  }

  /** For a positive page size, the page count is the least whole number of pages that holds the list. */
  lemma PagesIsCeiling(repos: seq<Repo>, perPage: int)
    requires perPage > 0
    ensures Pages(repos, perPage).Count?
    ensures var n := Pages(repos, perPage).n;
      n >= 0 && (n == 0 <==> |repos| == 0)
      && (n - 1) * perPage < |repos| <= n * perPage
  {
    var len := |repos|;
    var n := (len + perPage - 1) / perPage;
    var m := (len + perPage - 1) % perPage;
    assert len + perPage - 1 == n * perPage + m;
    assert n * perPage == (n - 1) * perPage + perPage;
  }

  /** Page `page` is non-empty exactly when it lies between 1 and the page count. */
  lemma PageNonEmptyIffInRange(repos: seq<Repo>, page: int, perPage: int)
    requires perPage > 0 && page >= 0
    ensures RepositoriesForPage(repos, page, perPage) != [] <==> 1 <= page <= Pages(repos, perPage).n
  {
    PagesIsCeiling(repos, perPage);
    var n := Pages(repos, perPage).n;
    if page >= 1 {
      PageIsBlock(repos, page, perPage);
      var lo := perPage * (page - 1);
      if page <= n {
        assert lo <= (n - 1) * perPage by { MultiplyMonotone(perPage, page - 1, n - 1); }
      } else {
        assert lo >= n * perPage by { MultiplyMonotone(perPage, n, page - 1); }
      }
    }
  }

  lemma MultiplyMonotone(k: int, x: int, y: int)
    requires k > 0 && x <= y
    ensures k * x <= k * y
  {
    assert k * y - k * x == k * (y - x);
  }

  /** Pages 1 through `count`, one after the other. */
  function PagesUpTo(repos: seq<Repo>, perPage: int, count: nat): seq<Repo>
  {
    if count == 0 then [] else PagesUpTo(repos, perPage, count - 1) + RepositoriesForPage(repos, count, perPage)
  }

  lemma {:induction false} PagesUpToIsPrefix(repos: seq<Repo>, perPage: int, count: nat)
    requires perPage > 0
    ensures 0 <= perPage * count
    ensures PagesUpTo(repos, perPage, count) == repos[..Min(perPage * count, |repos|)]
  {
    if count > 0 {
      PagesUpToIsPrefix(repos, perPage, count - 1);
      PageIsBlock(repos, count, perPage);
    }
  }

  /** Reading every page in turn gives back the whole list, each repository once and in order. */
  lemma PagesPartitionList(repos: seq<Repo>, perPage: int)
    requires perPage > 0
    ensures Pages(repos, perPage).n >= 0
    ensures PagesUpTo(repos, perPage, Pages(repos, perPage).n) == repos
  {
    PagesIsCeiling(repos, perPage);
    PagesUpToIsPrefix(repos, perPage, Pages(repos, perPage).n);
  }

  /** On the sorted list, every repository on an earlier page has at least as many stars as any on a later one. */
  lemma EarlierPagesHaveMoreStars(repos: seq<Repo>, perPage: int, p: int, q: int, x: Repo, y: Repo)
    requires SortedByStars(repos) && perPage > 0 && 1 <= p < q
    requires x in RepositoriesForPage(repos, p, perPage) && y in RepositoriesForPage(repos, q, perPage)
    ensures x.stars >= y.stars
  {
    PageIsBlock(repos, p, perPage);
    PageIsBlock(repos, q, perPage);
    MultiplyMonotone(perPage, p, q - 1);
    BlocksInOrder(repos, Min(perPage * (p - 1), |repos|), Min(perPage * p, |repos|),
                  Min(perPage * (q - 1), |repos|), Min(perPage * q, |repos|), x, y);
  }

  /** In a sorted list, an element of a block has at least as many stars as an element of a later block. */
  lemma BlocksInOrder(repos: seq<Repo>, lo1: int, hi1: int, lo2: int, hi2: int, x: Repo, y: Repo)
    requires SortedByStars(repos) && 0 <= lo1 <= hi1 <= lo2 <= hi2 <= |repos|
    requires x in repos[lo1..hi1] && y in repos[lo2..hi2]
    ensures x.stars >= y.stars
  {
    var i :| lo1 <= i < hi1 && repos[i] == x;
    var j :| lo2 <= j < hi2 && repos[j] == y;
  }

  /** `isLoading`: `repositoriesLoading || userLoading`, where `userLoading` belongs to the `user` loader. */
  function IsLoading(s: State, userLoading: bool): (r: bool)
    ensures r <==> s.repositoriesLoading || userLoading
  {
    s.repositoriesLoading || userLoading
  }

  /** From the initial state, the demo is loading exactly while a `setUsername` awaits its outcome or the user lookup runs. */
  lemma IsLoadingIffPending(trace: seq<Action>, userLoading: bool)
    ensures IsLoading(Run(Initial, trace), userLoading) <==> AwaitingRepositories(trace) || userLoading
  {
    LoadingIffAwaiting(trace);
  }

  /**
   * After `repositoriesLoaded(repos)`, the page shown is page 1 of
   * `sortedRepositories`, which is `repos` ordered by stars (the contract of
   * `SortByStars`): the first `perPage` repositories of the sorted list, none
   * with fewer stars than a repository off the page. The demo is loading only
   * while the user lookup is.
   */
  lemma LoadedShowsFirstPage(s: State, repos: seq<Repo>, sorted: seq<Repo>, userLoading: bool)
    requires s.perPage > 0
    requires SortedByStars(sorted) && multiset(sorted) == multiset(repos)
    ensures var r := Reduce(s, RepositoriesLoaded(repos));
      var shown := RepositoriesForPage(sorted, r.page, r.perPage);
      shown == sorted[..Min(s.perPage, |sorted|)]
      && |shown| == Min(s.perPage, |repos|)
      && multiset(shown) <= multiset(repos)
      && (forall x, y :: x in shown && y in sorted[|shown|..] ==> x.stars >= y.stars)
      && (IsLoading(r, userLoading) <==> userLoading)
  {
    assert |sorted| == |repos| by {
      assert |multiset(sorted)| == |multiset(repos)|;
    }
    PageIsBlock(sorted, 1, s.perPage);
    var m := Min(s.perPage, |sorted|);
    assert sorted == sorted[..m] + sorted[m..];
    assert multiset(sorted) == multiset(sorted[..m]) + multiset(sorted[m..]);
    forall x, y | x in sorted[..m] && y in sorted[m..]
      ensures x.stars >= y.stars
    {
      BlocksInOrder(sorted, 0, m, m, |sorted|, x, y);
    }
  }
}

=== FILE: github_tutorial.dfy ===
/**
 * The GitHub search logic of the tutorial (docs/tutorials/github/index.js)
 * and of its "events" step (src/components/tutorials/github/4-event/index.js).
 * Both have the same reducers; the first starts with `isLoading` true and
 * sorts its list with the `sortedRepositories` selector
 * (`RepoSort.SortByStars`), the second starts with it false.
 */
module GithubTutorial {
  import opened JsBuiltins
  import opened JsValues

  datatype State = State(username: string, repositories: JsValue, isLoading: bool, error: JsValue)

  datatype Action =
    | SetUsername(username: string)
    | SetRepositories(repositories: JsValue)
    | SetFetchError(error: JsValue)

  /** docs/tutorials/github/index.js: loading from the start, before the first fetch is dispatched. */
  const TutorialInitial: State := State("keajs", Array([]), true, Null)

  /** src/components/tutorials/github/4-event/index.js: idle until mounted. */
  const EventInitial: State := State("keajs", Array([]), false, Null)

  /** The four reducers applied to one action. */
  function Reduce(s: State, a: Action): (r: State)
    // setUsername starts a fresh search: empty list, no error, loading.
    ensures a.SetUsername? ==> r == State(a.username, Array([]), true, Null)
    // setRepositories stores the list and stops loading; the name and the error stay.
    ensures a.SetRepositories? ==> r == s.(repositories := a.repositories, isLoading := false)
    // setFetchError stores the error and stops loading; the name and the list stay.
    ensures a.SetFetchError? ==> r == s.(error := a.error, isLoading := false)
  {
    match a
    case SetUsername(u) => State(u, Array([]), true, Null)
    case SetRepositories(repos) => s.(repositories := repos, isLoading := false)
    case SetFetchError(e) => s.(error := e, isLoading := false)
  }

  /**
   * The two copies differ only in `isLoading` before mounting; `afterMount`
   * dispatches `setUsername(values.username)`, after which they agree.
   */
  lemma MountedCopiesAgree()
    ensures TutorialInitial == EventInitial.(isLoading := true)
    ensures Reduce(TutorialInitial, SetUsername(TutorialInitial.username))
            == Reduce(EventInitial, SetUsername(EventInitial.username))
            == TutorialInitial
  {
  }

  function Run(s: State, trace: seq<Action>): State
    decreases |trace|
  {
    if |trace| == 0 then s else Reduce(Run(s, trace[..|trace| - 1]), trace[|trace| - 1])
  }

  /** No action of the trace is `setRepositories` or `setFetchError`. */
  predicate NoOutcome(trace: seq<Action>)
  {
    forall i :: 0 <= i < |trace| ==> trace[i].SetUsername?
  }

  /**
   * After a `setUsername`, until the next `setRepositories` or `setFetchError`,
   * the list is empty, there is no error and the logic is loading, under the
   * last name set.
   */
  lemma {:induction false} SearchPendingUntilOutcome(s: State, u: string, rest: seq<Action>)
    requires NoOutcome(rest)
    ensures var r := Run(s, [SetUsername(u)] + rest);
      r.repositories == Array([]) && r.error == Null && r.isLoading
      && r.username == (if |rest| == 0 then u else rest[|rest| - 1].username)
    decreases |rest|
  {
    var trace := [SetUsername(u)] + rest;
    if |rest| == 0 {
      assert trace[..0] == [];
    } else {
      assert trace[..|trace| - 1] == [SetUsername(u)] + rest[..|rest| - 1];
      SearchPendingUntilOutcome(s, u, rest[..|rest| - 1]);
    }
  }

  /** Either outcome action stops loading, whatever the state was. */
  lemma OutcomeStopsLoading(s: State, a: Action)
    requires !a.SetUsername?
    ensures !Reduce(s, a).isLoading
  {
  }

  /**
   * The listener's choice once the response is in: `setRepositories(json)`
   * for status 200, otherwise `setFetchError(json.message)`. Reading
   * `message` of a `null` body throws, and nothing is dispatched (None).
   */
  function ListenerOutcome(response: Response): (r: Option<Action>)
    ensures response.status == 200 <==> r.Some? && r.value.SetRepositories?
    ensures response.status == 200 ==> r == Some(SetRepositories(response.body))
    ensures response.status != 200 ==>
      (r.None? <==> response.body.Null? || response.body.Undefined?)
      && (r.Some? ==> r.value.SetFetchError? && Some(r.value.error) == Member(response.body, "message"))
  {
    if response.status == 200 then Some(SetRepositories(response.body))
    else
      match Member(response.body, "message")
      case None => None
      case Some(message) => Some(SetFetchError(message))
  }

  /**
   * One whole search: `setUsername(u)` followed by what the listener
   * dispatches. It ends idle, under the name `u`, holding either the body and
   * no error (status 200) or no list and the body's `message`.
   */
  lemma SearchCycle(s: State, u: string, response: Response)
    requires ListenerOutcome(response).Some?
    ensures var r := Reduce(Reduce(s, SetUsername(u)), ListenerOutcome(response).value);
      !r.isLoading && r.username == u
      && (response.status == 200 ==> r.repositories == response.body && r.error == Null)
      && (response.status != 200 ==>
            r.repositories == Array([]) && Some(r.error) == Member(response.body, "message"))
  {
  }
}

=== FILE: js_builtins.dfy ===
/**
 * The few JavaScript built-ins the site's logic leans on, stated over Dafny
 * values: `Array.prototype.join` and `String.prototype.split` with a
 * one-character separator, `String.prototype.substring`,
 * `Array.prototype.slice` and `String.prototype.trim`.
 */
module JsBuiltins {

  datatype Option<+T> = None | Some(value: T)

  /** Concatenation of a list of strings (what `join('')` gives). */
  function Concat(parts: seq<string>): string
  {
    if |parts| == 0 then "" else parts[0] + Concat(parts[1..])
  }

  lemma {:induction false} ConcatAppend(xs: seq<string>, ys: seq<string>)
    ensures Concat(xs + ys) == Concat(xs) + Concat(ys)
  {
    if |xs| == 0 {
      assert xs + ys == ys;
    } else {
      assert (xs + ys)[1..] == xs[1..] + ys;
      ConcatAppend(xs[1..], ys);
    }
  }

  // ---------------------------------------------------------------------------
  // join / split with a single-character separator

  /** `parts.join(sep)`: the empty list joins to "", and the first part starts the result. */
  function Join(parts: seq<string>, sep: char): (r: string)
    ensures |parts| == 0 ==> r == ""
    ensures |parts| >= 1 ==> parts[0] <= r
  {
    if |parts| == 0 then ""
    else if |parts| == 1 then parts[0]
    else parts[0] + [sep] + Join(parts[1..], sep)
  }

  /**
   * `s.split(sep)`: the pieces between occurrences of `sep`. There is always
   * at least one piece ("".split(',') is [""]), and no piece holds `sep`.
   */
  function StringSplit(s: string, sep: char): (pieces: seq<string>)
    ensures |pieces| >= 1
    ensures forall i :: 0 <= i < |pieces| ==> sep !in pieces[i]
    decreases |s|
  {
    if |s| == 0 then [""]
    else
      var rest := StringSplit(s[1..], sep);
      if s[0] == sep then [""] + rest
      else [[s[0]] + rest[0]] + rest[1..]
  }

  /** When no part holds the separator, the joined string holds exactly one separator between each two consecutive parts. */
  lemma {:induction false} JoinCountsSeparators(parts: seq<string>, sep: char)
    requires |parts| >= 1
    requires forall i :: 0 <= i < |parts| ==> sep !in parts[i]
    ensures multiset(Join(parts, sep))[sep] == |parts| - 1
    decreases |parts|
  {
    assert multiset(parts[0])[sep] == 0;
    if |parts| > 1 {
      JoinCountsSeparators(parts[1..], sep);
      assert Join(parts, sep) == parts[0] + [sep] + Join(parts[1..], sep);
    }
  }

  /** Splitting a joined list gives the list back, provided no piece holds the separator. */
  lemma {:induction false} SplitJoin(parts: seq<string>, sep: char)
    requires |parts| >= 1
    requires forall i :: 0 <= i < |parts| ==> sep !in parts[i]
    ensures StringSplit(Join(parts, sep), sep) == parts
    decreases |parts|, |parts[0]|
  {
    var p := parts[0];
    if |parts| == 1 {
      SplitNoSeparator(p, sep);
    } else if |p| == 0 {
      var tail := Join(parts[1..], sep);
      assert Join(parts, sep) == [sep] + tail;
      assert ([sep] + tail)[1..] == tail;
      SplitJoin(parts[1..], sep);
      assert [""] + parts[1..] == parts;
    } else {
      // Peel the first character off the first piece.
      var shorter := [p[1..]] + parts[1..];
      assert shorter[1..] == parts[1..];
      assert Join(parts, sep) == [p[0]] + Join(shorter, sep);
      assert sep !in p[1..] by {
        forall c | c in p[1..] ensures c != sep { assert c in p; }
      }
      SplitJoin(shorter, sep);
      var whole := [p[0]] + Join(shorter, sep);
      assert whole[1..] == Join(shorter, sep);
      assert p[0] != sep;
      assert [p[0]] + p[1..] == p;
      assert [[p[0]] + shorter[0]] + shorter[1..] == parts;
    }
  }

  lemma {:induction false} SplitNoSeparator(s: string, sep: char)
    requires sep !in s
    ensures StringSplit(s, sep) == [s]
    decreases |s|
  {
    if |s| > 0 {
      assert s[1..] == s[1..] && sep !in s[1..] by {
        forall c | c in s[1..] ensures c != sep { assert c in s; }
      }
      SplitNoSeparator(s[1..], sep);
      assert [s[0]] + s[1..] == s;
    }
  }

  /** Joining the pieces of a split restores the string. */
  lemma {:induction false} JoinSplit(s: string, sep: char)
    ensures Join(StringSplit(s, sep), sep) == s
    decreases |s|
  {
    if |s| > 0 {
      var rest := StringSplit(s[1..], sep);
      JoinSplit(s[1..], sep);
      if s[0] == sep {
        assert StringSplit(s, sep) == [""] + rest;
        assert ([""] + rest)[1..] == rest;
        assert [s[0]] + s[1..] == s;
      } else {
        var first := [s[0]] + rest[0];
        assert StringSplit(s, sep) == [first] + rest[1..];
        if |rest| == 1 {
          assert [s[0]] + s[1..] == s;
        } else {
          assert ([first] + rest[1..])[1..] == rest[1..];
          assert Join(rest, sep) == rest[0] + [sep] + Join(rest[1..], sep);
          assert [s[0]] + s[1..] == s;
        }
      }
    }
  }

  // ---------------------------------------------------------------------------
  // substring and slice

  /** Clamping of a `substring` argument into [0, len]. */
  function ClampIndex(x: int, len: nat): (r: nat)
    ensures r <= len
    ensures 0 <= x <= len ==> r == x
  {
    if x < 0 then 0 else if x > len then len else x
  }

  /**
   * `s.substring(start, end)`: both arguments are clamped into [0, |s|], and
   * when the start lies after the end the two are swapped.
   */
  function Substring(s: string, start: int, end: int): (r: string)
    ensures |r| <= |s|
    ensures 0 <= start <= end <= |s| ==> r == s[start..end]
    ensures 0 <= end <= start <= |s| ==> r == s[end..start]
  {
    var a := ClampIndex(start, |s|);
    var b := ClampIndex(end, |s|);
    if a <= b then s[a..b] else s[b..a]
  }

  /** A `slice` argument: negative values count back from the end. */
  function RelativeIndex(x: int, len: nat): (r: nat)
    ensures r <= len
  {
    if x < 0 then (if len + x < 0 then 0 else len + x)
    else if x > len then len
    else x
  }

  /** `a.slice(start, end)`: the elements between the two relative indices, empty when they cross. */
  function Slice<T>(a: seq<T>, start: int, end: int): (r: seq<T>)
    ensures |r| <= |a|
    ensures 0 <= start <= end <= |a| ==> r == a[start..end]
    ensures 0 <= end <= start ==> r == []
  {
    var lo := RelativeIndex(start, |a|);
    var hi := RelativeIndex(end, |a|);
    if lo < hi then
      assert a == a[..lo] + a[lo..hi] + a[hi..];
      a[lo..hi]
    else []
  }

  // ---------------------------------------------------------------------------
  // trim

  /** The characters ECMAScript `trim` removes: WhiteSpace and LineTerminator. */
  predicate IsJsWhitespace(c: char)
  {
    c == ' ' || c == '\t' || c == '\n' || c == '\r' || c == '\U{000B}' || c == '\U{000C}'
    || c == '\U{00A0}' || c == '\U{FEFF}' || c == '\U{1680}'
    || ('\U{2000}' <= c <= '\U{200A}')
    || c == '\U{2028}' || c == '\U{2029}' || c == '\U{202F}' || c == '\U{205F}' || c == '\U{3000}'
  }

  /** The four ECMAScript LineTerminator characters (those `.` does not match). */
  predicate IsLineTerminator(c: char)
  {
    c == '\n' || c == '\r' || c == '\U{2028}' || c == '\U{2029}'
  }

  predicate IsBlank(s: string)
  {
    forall i :: 0 <= i < |s| ==> IsJsWhitespace(s[i])
  }

  /** Removes leading whitespace: the result is a suffix, and what was dropped is whitespace. */
  function TrimStart(s: string): (r: string)
    ensures |r| <= |s| && r == s[|s| - |r|..]
    ensures forall i :: 0 <= i < |s| - |r| ==> IsJsWhitespace(s[i])
    ensures |r| > 0 ==> !IsJsWhitespace(r[0])
    decreases |s|
  {
    if |s| > 0 && IsJsWhitespace(s[0]) then TrimStart(s[1..]) else s
  }

  /** Removes trailing whitespace: the result is a prefix, and what was dropped is whitespace. */
  function TrimEnd(s: string): (r: string)
    ensures |r| <= |s| && r == s[..|r|]
    ensures forall i :: |r| <= i < |s| ==> IsJsWhitespace(s[i])
    ensures |r| > 0 ==> !IsJsWhitespace(r[|r| - 1])
    decreases |s|
  {
    if |s| > 0 && IsJsWhitespace(s[|s| - 1]) then TrimEnd(s[..|s| - 1]) else s
  }

  /** `s.trim()`: a part of `s` that neither starts nor ends with whitespace. */
  function Trim(s: string): (r: string)
    ensures |r| <= |s|
    ensures |r| > 0 ==> !IsJsWhitespace(r[0]) && !IsJsWhitespace(r[|r| - 1])
  {
    var t := TrimStart(s);
    var r := TrimEnd(t);
    assert |r| > 0 ==> r[0] == t[0];
    r
  }

  /** `trim` removes a whitespace prefix and a whitespace suffix and keeps the middle of `s` unchanged. */
  lemma TrimIsMiddle(s: string)
    ensures exists k :: (0 <= k && k + |Trim(s)| <= |s| && Trim(s) == s[k..k + |Trim(s)|]
      && IsBlank(s[..k]) && IsBlank(s[k + |Trim(s)|..]))
  {
    var t := TrimStart(s);
    var r := TrimEnd(t);
    var k := |s| - |t|;
    assert t == s[k..];
    assert r == s[k..k + |r|];
    assert IsBlank(s[..k]);
    assert s[k + |r|..] == t[|r|..];
    assert IsBlank(t[|r|..]);
    assert Trim(s) == r;
    assert 0 <= k && k + |r| <= |s| && r == s[k..k + |r|] && IsBlank(s[..k]) && IsBlank(s[k + |r|..]);
  }

  /** `s.trim() === ''` holds exactly for the whitespace-only strings. */
  lemma TrimEmptyIffBlank(s: string)
    ensures Trim(s) == "" <==> IsBlank(s)
  {
    var t := TrimStart(s);
    if |t| > 0 {
      assert !IsJsWhitespace(s[|s| - |t|]) by { assert t[0] == s[|s| - |t|]; }
    }
  }

  /** Trimming after dropping some leading whitespace gives the same result. */
  lemma {:induction false} TrimSkipsLeadingWhitespace(s: string, k: nat)
    requires k <= |s|
    requires forall i :: 0 <= i < k ==> IsJsWhitespace(s[i])
    ensures Trim(s[k..]) == Trim(s)
    decreases k
  {
    if k > 0 {
      assert s[1..][k - 1..] == s[k..];
      TrimSkipsLeadingWhitespace(s[1..], k - 1);
    }
  }

  /** A string that neither starts nor ends with whitespace is its own trim. */
  lemma TrimOfUnpadded(t: string)
    requires |t| > 0 && !IsJsWhitespace(t[0]) && !IsJsWhitespace(t[|t| - 1])
    ensures Trim(t) == t
  {
    assert TrimStart(t) == t;
  }

  /** Trimming a string with a whitespace prefix and non-whitespace edges after it drops exactly that prefix. */
  lemma TrimDropsPrefix(t: string, k: nat)
    requires k < |t|
    requires forall i :: 0 <= i < k ==> IsJsWhitespace(t[i])
    requires !IsJsWhitespace(t[k]) && !IsJsWhitespace(t[|t| - 1])
    ensures Trim(t) == t[k..]
  {
    TrimSkipsLeadingWhitespace(t, k);
    TrimOfUnpadded(t[k..]);
  }
}

=== FILE: js_values.dfy ===
/**
 * The JavaScript values the GitHub demos handle: parsed JSON bodies plus
 * `undefined`, their truthiness, `||`, property reads, and the response a
 * `fetch` delivers. Numbers are integers.
 */
module JsValues {
  import opened JsBuiltins

  /** The JavaScript values a parsed response body can hold, plus `undefined`. */
  datatype JsValue =
    | Undefined
    | Null
    | Bool(b: bool)
    | Number(n: int)
    | Str(s: string)
    | Array(items: seq<JsValue>)
    | Object(fields: map<string, JsValue>)

  /** JavaScript truthiness. */
  predicate Truthy(v: JsValue)
  {
    match v
    case Undefined => false
    case Null => false
    case Bool(b) => b
    case Number(n) => n != 0
    case Str(s) => s != ""
    case Array(_) => true
    case Object(_) => true
  }

  /** `a || b`. */
  function Or(a: JsValue, b: JsValue): (r: JsValue)
    ensures Truthy(a) ==> r == a
    ensures !Truthy(a) ==> r == b
  {
    if Truthy(a) then a else b
  }

  /**
   * `v[key]` for an own property: `undefined` when absent. Reading a property
   * of `null` or `undefined` throws a TypeError, shown as None.
   */
  function Member(v: JsValue, key: string): (r: Option<JsValue>)
    ensures r.None? <==> v.Null? || v.Undefined?
    ensures v.Object? && key in v.fields ==> r == Some(v.fields[key])
    ensures v.Object? && key !in v.fields ==> r == Some(Undefined)
  {
    match v
    case Undefined => None
    case Null => None
    case Object(fields) => Some(if key in fields then fields[key] else Undefined)
    case _ => Some(Undefined)
  }

  /** What `window.fetch` and `response.json()` deliver. */
  datatype Response = Response(status: int, body: JsValue)
}

=== FILE: repo_sort.dfy ===
/**
 * The `sortedRepositories` selector of the GitHub demos:
 * `repositories.sort((a, b) => b.stargazers_count - a.stargazers_count)`.
 * `Array.prototype.sort` reorders the reducer's own array in place, so the
 * model sorts an `array` in place. Star counts are integers.
 */
module RepoSort {

  /** The fields of a GitHub repository record that the demos read. */
  datatype Repo = Repo(id: int, fullName: string, stars: int)

  /** Non-increasing `stargazers_count`. */
  predicate SortedByStars(repos: seq<Repo>)
  {
    forall i, j :: 0 <= i < j < |repos| ==> repos[i].stars >= repos[j].stars
  }

  /** Sorts by star count, most stars first: each element in turn is moved down into the sorted prefix. */
  method SortByStars(a: array<Repo>)
    modifies a
    ensures SortedByStars(a[..])
    ensures multiset(a[..]) == multiset(old(a[..]))
  {
    var i := 0;
    while i < a.Length
      invariant 0 <= i <= a.Length
      invariant forall p, q :: 0 <= p < q < i ==> a[p].stars >= a[q].stars
      invariant multiset(a[..]) == multiset(old(a[..]))
    {
      InsertNext(a, i);
      i := i + 1;
    }
  }

  /** Moves `a[i]` down past the elements with fewer stars, so that `a[..i + 1]` is sorted. */
  method InsertNext(a: array<Repo>, i: int)
    requires 0 <= i < a.Length
    requires forall p, q :: 0 <= p < q < i ==> a[p].stars >= a[q].stars
    modifies a
    ensures forall p, q :: 0 <= p < q <= i ==> a[p].stars >= a[q].stars
    ensures multiset(a[..]) == multiset(old(a[..]))
  {
    var j := i;
    while j > 0 && a[j - 1].stars < a[j].stars
      invariant 0 <= j <= i
      invariant forall p, q :: 0 <= p < q <= i && p != j && q != j ==> a[p].stars >= a[q].stars
      invariant forall q :: j < q <= i ==> a[j].stars > a[q].stars
      invariant multiset(a[..]) == multiset(old(a[..]))
    {
      SwapDown(a, j);
      j := j - 1;
    }
  }

  /** Exchanges `a[j - 1]` and `a[j]`. */
  method SwapDown(a: array<Repo>, j: int)
    requires 0 < j < a.Length
    modifies a
    ensures a[j - 1] == old(a[j]) && a[j] == old(a[j - 1])
    ensures forall k :: 0 <= k < a.Length && k != j - 1 && k != j ==> a[k] == old(a[k])
    ensures multiset(a[..]) == multiset(old(a[..]))
  {
    a[j - 1], a[j] := a[j], a[j - 1];
  }
}

=== FILE: tokenizer.dfy ===
/**
 * The line tokenizer of the interactive code widget (the `L` component and
 * its inner `split`). A line is cut by an ordered table of regular-expression
 * rules: the first rule that splits the text into more than one part wins,
 * the matched parts (odd indices) are rendered by the rule, and the text
 * between matches (even indices) is tokenized again one level deeper, down
 * to depth 4.
 *
 * Regular-expression matching itself is not modelled: an `Oracle` answers
 * `element.split(new RegExp('(' + pattern + ')'))`, or None when the
 * `RegExp` constructor throws (a browser without lookbehind support).
 */
module Tokenizer {
  import opened JsBuiltins

  /** What a rule does with a matched part: colour it, or call one of the three render functions. */
  datatype RuleAction = Color(name: string) | LabelParen | LabelAsync | Marker

  datatype Rule = Rule(pattern: string, action: RuleAction)

  /** How a colour name becomes a CSS colour. */
  datatype Palette = CssVariables | NamedColors

  /** One copy of the widget: its rule table, whether it catches `RegExp` errors, its palette. */
  datatype Variant = Variant(rules: seq<Rule>, catchErrors: bool, palette: Palette)

  /** `element.split(new RegExp('(' + pattern + ')'))`, or None when the constructor throws. */
  type Oracle = (string, string) -> Option<seq<string>>

  /** The rule table of docs/api/kea/code.js and src/components/intro/code.js. */
  const KeaRules: seq<Rule> := [
    Rule("//.*", Color("gray")),
    Rule("/\\*[^\\*]+\\*/", Color("gray")),
    Rule("[a-zA-Z_-]+: \\(", LabelParen),
    Rule("[a-zA-Z_-]+: async", LabelAsync),
    Rule("[a-zA-Z_-]+:", Color("purple")),
    Rule("\"[^\"]+\"", Color("green")),
    Rule("'[^']+'", Color("green")),
    Rule("`[^']+`", Color("green")),
    Rule("const|function|async|await|true|false|return|throw|new", Color("blue")),
    Rule("(?<=<)[a-zA-Z0-9_]+(?=[> ])", Color("blue")),
    Rule("(?<=<)[a-zA-Z0-9_]+$", Color("blue")),
    Rule("(?<=</)[a-zA-Z0-9_]+(?=>)", Color("blue")),
    Rule("(?<=[^a-zA-Z0-9_])[a-zA-Z0-9_]+(?==)", Color("blue")),
    Rule("(?<=[a-zA-Z0-9_]\\??\\.)[a-zA-Z0-9_]+(?=\\()", Color("brown")),
    Rule("(?<=[a-zA-Z0-9_]\\??\\.)[a-zA-Z0-9_]+(?!=\\()", Color("purple")),
    Rule("[{}()]", Color("black")),
    Rule("[0-9]", Color("blue")),
    Rule("#[[a-zA-Z]+]#", Marker),
    Rule("kea|useActions|useValues", Color("green")),
    Rule("[a-zA-Z_-]+", Color("black"))
  ]

  /** The smaller rule table of src/components/intro-code.js. */
  const ComponentRules: seq<Rule> := [
    Rule("//.*", Color("gray")),
    Rule("[a-zA-Z_-]+: \\(", LabelParen),
    Rule("[a-zA-Z_-]+: async", LabelAsync),
    Rule("[a-zA-Z_-]+:", Color("purple")),
    Rule("\"[^\"]+\"", Color("green")),
    Rule("'[^']+'", Color("green")),
    Rule("const|function|async|await", Color("blue")),
    Rule("[{}()]", Color("black")),
    Rule("[0-9]", Color("blue")),
    Rule("#[[a-zA-Z]+]#", Marker),
    Rule("kea", Color("green")),
    Rule("[a-zA-Z_-]+", Color("black"))
  ]

  /** docs/api/kea/code.js and src/components/intro/code.js: errors caught, `var(--code-color-…)`. */
  const KeaVariant := Variant(KeaRules, true, CssVariables)

  /** src/components/intro-code.js: no try/catch, plain colour names. */
  const ComponentVariant := Variant(ComponentRules, false, NamedColors)

  // ---------------------------------------------------------------------------
  // Output

  /** What the three render functions produce. */
  datatype View =
    | ParenLabel(key: string)   // brown label, then " ("
    | AsyncLabel(key: string)   // brown label, then blue "async"
    | ShrinkButton(code: string)
    | ExpandButton(code: string)

  /** One element of the flattened output of `split`. */
  datatype Piece = Plain(text: string) | Span(color: string, text: string) | Widget(view: View)

  /** The result of `split`: the flattened pieces, or an exception that escaped it. */
  datatype Rendered = Ok(pieces: seq<Piece>) | Thrown

  function CssColor(palette: Palette, name: string): string
  {
    match palette
    case CssVariables => "var(--code-color-" + name + ")"
    case NamedColors => name
  }

  /** The section code a marker match names: `str.substring(2, str.length - 2)`. */
  function MarkerCode(m: string): (code: string)
    ensures |m| >= 4 ==> m[..2] + code + m[|m| - 2..] == m
    ensures |code| <= |m|
  {
    var code := Substring(m, 2, |m| - 2);
    assert |m| >= 4 ==> m[..2] + m[2..|m| - 2] + m[|m| - 2..] == m;
    code
  }

  /**
   * The properties a plain object inherits from `Object.prototype`. Reading
   * one of them gives a function (or, for `__proto__`, the prototype itself),
   * which is truthy whether or not the object has the key of its own.
   */
  const InheritedMembers: set<string> := {
    "constructor", "hasOwnProperty", "isPrototypeOf", "propertyIsEnumerable",
    "toLocaleString", "toString", "valueOf", "__proto__",
    "__defineGetter__", "__defineSetter__", "__lookupGetter__", "__lookupSetter__"
  }

  /** `expanded[code]` is truthy: an own key of the `expanded` object (each maps to `true`) or an inherited member. */
  predicate ReadsTruthy(expanded: seq<string>, code: string)
  {
    code in expanded || code in InheritedMembers
  }

  /** How a rule renders one matched part. */
  function Apply(action: RuleAction, palette: Palette, expanded: seq<string>, m: string): (p: Piece)
    // A colour rule shows the match itself.
    ensures action.Color? ==> p.Span? && p.text == m
    // A label rule shows a label cut from the front of the match.
    ensures action.LabelParen? ==> p.Widget? && p.view.ParenLabel? && p.view.key <= m
    ensures action.LabelAsync? ==> p.Widget? && p.view.AsyncLabel? && p.view.key <= m
    // A marker shows a button for the section it names: Shrink exactly when `expanded[code]` is truthy.
    ensures action.Marker? ==> p.Widget? && (p.view.ShrinkButton? || p.view.ExpandButton?)
                               && p.view.code == MarkerCode(m)
                               && (p.view.ShrinkButton? <==> ReadsTruthy(expanded, MarkerCode(m)))
  {
    match action
    case Color(name) => Span(CssColor(palette, name), m)
    case LabelParen => Widget(ParenLabel(Substring(m, 0, |m| - 2)))
    case LabelAsync => Widget(AsyncLabel(Substring(m, 0, |m| - 5)))
    case Marker =>
      var code := MarkerCode(m);
      if ReadsTruthy(expanded, code) then Widget(ShrinkButton(code)) else Widget(ExpandButton(code))
  }

  function Append(a: Rendered, b: Rendered): Rendered
  {
    if a.Ok? && b.Ok? then Ok(a.pieces + b.pieces) else Thrown
  }

  // ---------------------------------------------------------------------------
  // Rule choice

  /** A rule gives way to the next one: it split into at most one part, or its construction threw and was caught. */
  predicate Declines(catchErrors: bool, outcome: Option<seq<string>>)
  {
    match outcome
    case None => catchErrors
    case Some(parts) => |parts| <= 1
  }

  datatype Choice = Chosen(index: nat, parts: seq<string>) | NoRule | ThrewAt(index: nat)

  /** The rule that decides `element`, trying the table in order from `from`. */
  function FirstSplit(v: Variant, oracle: Oracle, element: string, from: nat): (c: Choice)
    requires from <= |v.rules|
    ensures c.Chosen? ==> from <= c.index < |v.rules| && |c.parts| > 1
                          && oracle(v.rules[c.index].pattern, element) == Some(c.parts)
    ensures c.ThrewAt? ==> !v.catchErrors && from <= c.index < |v.rules|
                           && oracle(v.rules[c.index].pattern, element) == None
    ensures forall j :: from <= j < (if c.NoRule? then |v.rules| else c.index) ==>
              Declines(v.catchErrors, oracle(v.rules[j].pattern, element))
    decreases |v.rules| - from
  {
    if from == |v.rules| then NoRule
    else
      match oracle(v.rules[from].pattern, element)
      case None =>
        if v.catchErrors then FirstSplit(v, oracle, element, from + 1) else ThrewAt(from)
      case Some(parts) =>
        if |parts| > 1 then Chosen(from, parts) else FirstSplit(v, oracle, element, from + 1)
  }

  /** Rules that decline do not affect the choice. */
  lemma {:induction false} FirstSplitSkips(v: Variant, oracle: Oracle, element: string, from: nat, k: nat)
    requires from <= k <= |v.rules|
    requires forall j :: from <= j < k ==> Declines(v.catchErrors, oracle(v.rules[j].pattern, element))
    ensures FirstSplit(v, oracle, element, from) == FirstSplit(v, oracle, element, k)
    decreases k - from
  {
    if from < k {
      assert Declines(v.catchErrors, oracle(v.rules[from].pattern, element));
      FirstSplitSkips(v, oracle, element, from + 1, k);
    }
  }

  // ---------------------------------------------------------------------------
  // split

  /** `split(element, depth)`, as a function. */
  function Tokenize(v: Variant, oracle: Oracle, expanded: seq<string>, element: string, depth: nat): (r: Rendered)
    ensures depth > 3 || Trim(element) == "" ==> r == Ok([Plain(element)])
    decreases 4 - depth, 1, 0, 0
  {
    if depth > 3 || Trim(element) == "" then Ok([Plain(element)])
    else
      match FirstSplit(v, oracle, element, 0)
      case NoRule => Ok([Plain(element)])
      case ThrewAt(_) => Thrown
      case Chosen(k, parts) => RenderParts(v, oracle, expanded, v.rules[k].action, parts, 0, depth)
  }

  /** The `map` over the parts from index `i`, flattened: even parts recursed, odd parts rendered. */
  function RenderParts(v: Variant, oracle: Oracle, expanded: seq<string>, action: RuleAction,
                       parts: seq<string>, i: nat, depth: nat): (r: Rendered)
    requires depth <= 3 && i <= |parts|
    decreases 4 - depth, 0, |parts| - i, 1
  {
    if i == |parts| then Ok([])
    else
      Append(RenderPart(v, oracle, expanded, action, parts, i, depth),
             RenderParts(v, oracle, expanded, action, parts, i + 1, depth))
  }

  /** Part `i`: recursed when even, rendered by the rule when odd. */
  function RenderPart(v: Variant, oracle: Oracle, expanded: seq<string>, action: RuleAction,
                      parts: seq<string>, i: nat, depth: nat): (r: Rendered)
    requires depth <= 3 && i < |parts|
    ensures i % 2 == 1 ==> r.Ok? && |r.pieces| == 1
    decreases 4 - depth, 0, |parts| - i, 0
  {
    if i % 2 == 0 then Tokenize(v, oracle, expanded, parts[i], depth + 1)
    else Ok([Apply(action, v.palette, expanded, parts[i])])
  }

  /**
   * `split` as the source writes it: a blank or too-deep element is returned,
   * otherwise the rule table is searched, and the parts of the chosen rule are
   * mapped over, recursing into the even ones.
   */
  method Split(v: Variant, oracle: Oracle, expanded: seq<string>, element: string, depth: nat)
    returns (r: Rendered)
    ensures r == Tokenize(v, oracle, expanded, element, depth)
    decreases 4 - depth, 2
  {
    if depth > 3 || Trim(element) == "" {
      return Ok([Plain(element)]);
    }
    var choice := ChooseRule(v, oracle, element);
    match choice
    case NoRule => r := Ok([Plain(element)]);
    case ThrewAt(_) => r := Thrown;
    case Chosen(k, parts) => r := RenderMatches(v, oracle, expanded, v.rules[k].action, parts, depth);
  }

  /**
   * The `for` loop over the rule table: a caught constructor error leaves
   * `parts` empty, an uncaught one escapes, and the first rule that splits the
   * element into more than one part ends the loop.
   */
  method ChooseRule(v: Variant, oracle: Oracle, element: string) returns (c: Choice)
    ensures c == FirstSplit(v, oracle, element, 0)
  {
    var k := 0;
    while k < |v.rules|
      invariant k <= |v.rules|
      invariant FirstSplit(v, oracle, element, 0) == FirstSplit(v, oracle, element, k)
    {
      var parts: seq<string> := [];
      var outcome := oracle(v.rules[k].pattern, element);
      if outcome.Some? {
        parts := outcome.value;
      } else if !v.catchErrors {
        return ThrewAt(k);
      }
      if |parts| > 1 {
        return Chosen(k, parts);
      }
      k := k + 1;
    }
    return NoRule;
  }

  method RenderMatches(v: Variant, oracle: Oracle, expanded: seq<string>, action: RuleAction,
                       parts: seq<string>, depth: nat) returns (r: Rendered)
    requires depth <= 3
    ensures r == RenderParts(v, oracle, expanded, action, parts, 0, depth)
    decreases 4 - depth, 1
  {
    ghost var whole := RenderParts(v, oracle, expanded, action, parts, 0, depth);
    var acc: seq<Piece> := [];
    var i := 0;
    while i < |parts|
      invariant i <= |parts|
      invariant whole == Append(Ok(acc), RenderParts(v, oracle, expanded, action, parts, i, depth))
    {
      var piece := RenderMatch(v, oracle, expanded, action, parts, i, depth);
      ghost var rest := RenderParts(v, oracle, expanded, action, parts, i + 1, depth);
      AccumulateStep(acc, piece, rest);
      if piece.Thrown? {
        return Thrown;
      }
      acc := acc + piece.pieces;
      i := i + 1;
    }
    r := Ok(acc);
  }

  /** One element of the `map`: an even part is split one level deeper, an odd part is rendered by the rule. */
  method RenderMatch(v: Variant, oracle: Oracle, expanded: seq<string>, action: RuleAction,
                     parts: seq<string>, i: nat, depth: nat) returns (piece: Rendered)
    requires depth <= 3 && i < |parts|
    ensures piece == RenderPart(v, oracle, expanded, action, parts, i, depth)
    decreases 4 - depth, 0
  {
    if i % 2 == 0 {
      piece := Split(v, oracle, expanded, parts[i], depth + 1);
    } else {
      piece := Ok([Apply(action, v.palette, expanded, parts[i])]);
    }
  }

  /** Taking one more rendered part into the accumulated pieces; a throw ends the whole result. */
  lemma AccumulateStep(acc: seq<Piece>, piece: Rendered, rest: Rendered)
    ensures piece.Ok? ==> Append(Ok(acc), Append(piece, rest)) == Append(Ok(acc + piece.pieces), rest)
    ensures piece.Thrown? ==> Append(Ok(acc), Append(piece, rest)) == Thrown
  {
    if piece.Ok? && rest.Ok? {
      assert acc + (piece.pieces + rest.pieces) == (acc + piece.pieces) + rest.pieces;
    }
  }

  // ---------------------------------------------------------------------------
  // Properties of split

  /** When every rule declines, `split` returns the element as it is. */
  lemma AllRulesDeclineKeepElement(v: Variant, oracle: Oracle, expanded: seq<string>, element: string, depth: nat)
    requires forall j :: 0 <= j < |v.rules| ==> Declines(v.catchErrors, oracle(v.rules[j].pattern, element))
    ensures Tokenize(v, oracle, expanded, element, depth) == Ok([Plain(element)])
  {
    FirstSplitSkips(v, oracle, element, 0, |v.rules|);
  }

  /** The first rule in table order that splits the element decides how it is rendered. */
  lemma FirstSplittingRuleDecides(v: Variant, oracle: Oracle, expanded: seq<string>, element: string,
                                  depth: nat, k: nat, parts: seq<string>)
    requires depth <= 3 && Trim(element) != ""
    requires k < |v.rules| && oracle(v.rules[k].pattern, element) == Some(parts) && |parts| > 1
    requires forall j :: 0 <= j < k ==> Declines(v.catchErrors, oracle(v.rules[j].pattern, element))
    ensures Tokenize(v, oracle, expanded, element, depth)
            == RenderParts(v, oracle, expanded, v.rules[k].action, parts, 0, depth)
  {
    FirstSplitSkips(v, oracle, element, 0, k);
  }

  /** In both tables the comment rule comes first, so a line with `//` is cut by it, in gray. */
  lemma CommentRuleWins(v: Variant, oracle: Oracle, expanded: seq<string>, element: string,
                        depth: nat, parts: seq<string>)
    requires v == KeaVariant || v == ComponentVariant
    requires depth <= 3 && Trim(element) != ""
    requires oracle("//.*", element) == Some(parts) && |parts| > 1
    ensures Tokenize(v, oracle, expanded, element, depth)
            == RenderParts(v, oracle, expanded, Color("gray"), parts, 0, depth)
  {
    FirstSplittingRuleDecides(v, oracle, expanded, element, depth, 0, parts);
  }

  /**
   * Without try/catch, a rule whose `RegExp` cannot be built makes `split`
   * throw, once every earlier rule has declined.
   */
  lemma UncaughtConstructionErrorEscapes(v: Variant, oracle: Oracle, expanded: seq<string>, element: string,
                                         depth: nat, k: nat)
    requires !v.catchErrors
    requires depth <= 3 && Trim(element) != ""
    requires k < |v.rules| && oracle(v.rules[k].pattern, element) == None
    requires forall j :: 0 <= j < k ==> Declines(v.catchErrors, oracle(v.rules[j].pattern, element))
    ensures Tokenize(v, oracle, expanded, element, depth) == Thrown
  {
    FirstSplitSkips(v, oracle, element, 0, k);
  }

  /** With try/catch, a rule whose `RegExp` cannot be built is skipped and the next rule is tried. */
  lemma CaughtConstructionErrorSkips(v: Variant, oracle: Oracle, element: string, k: nat)
    requires v.catchErrors
    requires k < |v.rules| && oracle(v.rules[k].pattern, element) == None
    ensures FirstSplit(v, oracle, element, k) == FirstSplit(v, oracle, element, k + 1)
  {
  }

  /** With try/catch, `split` never throws, whatever the oracle answers. */
  lemma {:induction false} CaughtNeverThrows(v: Variant, oracle: Oracle, expanded: seq<string>,
                                             element: string, depth: nat)
    requires v.catchErrors
    ensures Tokenize(v, oracle, expanded, element, depth).Ok?
    decreases 4 - depth, 1, 0
  {
    if !(depth > 3 || Trim(element) == "") {
      match FirstSplit(v, oracle, element, 0)
      case NoRule =>
      case ThrewAt(_) =>
      case Chosen(k, parts) =>
        RenderPartsCaughtNeverThrows(v, oracle, expanded, v.rules[k].action, parts, 0, depth);
    }
  }

  lemma {:induction false} RenderPartsCaughtNeverThrows(v: Variant, oracle: Oracle, expanded: seq<string>,
                                                        action: RuleAction, parts: seq<string>, i: nat, depth: nat)
    requires v.catchErrors
    requires depth <= 3 && i <= |parts|
    ensures RenderParts(v, oracle, expanded, action, parts, i, depth).Ok?
    decreases 4 - depth, 0, |parts| - i
  {
    if i < |parts| {
      if i % 2 == 0 {
        CaughtNeverThrows(v, oracle, expanded, parts[i], depth + 1);
      }
      var head := RenderPart(v, oracle, expanded, action, parts, i, depth);
      RenderPartsCaughtNeverThrows(v, oracle, expanded, action, parts, i + 1, depth);
      var tail := RenderParts(v, oracle, expanded, action, parts, i + 1, depth);
      assert head.Ok? && tail.Ok?;
    }
  }

  /** Whatever the oracle answers, a `split` that does not throw gives at least one piece. */
  lemma {:induction false} TokenizeYieldsPieces(v: Variant, oracle: Oracle, expanded: seq<string>,
                                                element: string, depth: nat)
    ensures Tokenize(v, oracle, expanded, element, depth).Ok? ==>
            |Tokenize(v, oracle, expanded, element, depth).pieces| >= 1
    decreases 4 - depth, 1, 0
  {
    if !(depth > 3 || Trim(element) == "") {
      match FirstSplit(v, oracle, element, 0)
      case NoRule =>
      case ThrewAt(_) =>
      case Chosen(k, parts) =>
        RenderPartsYieldPieces(v, oracle, expanded, v.rules[k].action, parts, 0, depth);
    }
  }

  /** Every part from index `i` on gives at least one piece: the flattened `map` has no fewer pieces than parts. */
  lemma {:induction false} RenderPartsYieldPieces(v: Variant, oracle: Oracle, expanded: seq<string>,
                                                  action: RuleAction, parts: seq<string>, i: nat, depth: nat)
    requires depth <= 3 && i <= |parts|
    ensures RenderParts(v, oracle, expanded, action, parts, i, depth).Ok? ==>
            |RenderParts(v, oracle, expanded, action, parts, i, depth).pieces| >= |parts| - i
    decreases 4 - depth, 0, |parts| - i
  {
    if i < |parts| {
      if i % 2 == 0 {
        TokenizeYieldsPieces(v, oracle, expanded, parts[i], depth + 1);
      }
      RenderPartsYieldPieces(v, oracle, expanded, action, parts, i + 1, depth);
    }
  }

  // ---------------------------------------------------------------------------
  // Nothing of the line is lost

  /** The source text a piece stands for. */
  function Echo(p: Piece): string
  {
    match p
    case Plain(t) => t
    case Span(_, t) => t
    case Widget(view) =>
      match view
      case ParenLabel(key) => key + " ("
      case AsyncLabel(key) => key + "async"
      case ShrinkButton(code) => "#[" + code + "]#"
      case ExpandButton(code) => "#[" + code + "]#"
  }

  function EchoAll(ps: seq<Piece>): string
  {
    if |ps| == 0 then "" else Echo(ps[0]) + EchoAll(ps[1..])
  }

  lemma {:induction false} EchoAllAppend(xs: seq<Piece>, ys: seq<Piece>)
    ensures EchoAll(xs + ys) == EchoAll(xs) + EchoAll(ys)
    decreases |xs|
  {
    if |xs| == 0 {
      assert xs + ys == ys;
    } else {
      assert (xs + ys)[0] == xs[0];
      assert (xs + ys)[1..] == xs[1..] + ys;
      EchoAllAppend(xs[1..], ys);
    }
  }

  /**
   * The shape a match of each kind of rule has: `[a-zA-Z_-]+: \(` ends in
   * " (", `[a-zA-Z_-]+: async` ends in "async", and a section marker is
   * written `#[name]#`.
   */
  predicate HasShape(action: RuleAction, m: string)
  {
    match action
    case Color(_) => true
    case LabelParen => |m| >= 2 && m[|m| - 2..] == " ("
    case LabelAsync => |m| >= 5 && m[|m| - 5..] == "async"
    case Marker => |m| >= 4 && m[..2] == "#[" && m[|m| - 2..] == "]#"
  }

  /** A `String.prototype.split` with one capture group: the parts spell the element, the odd ones are matches. */
  predicate SoundSplit(action: RuleAction, element: string, parts: seq<string>)
  {
    Concat(parts) == element
    && forall i :: 0 <= i < |parts| && i % 2 == 1 ==> HasShape(action, parts[i])
  }

  ghost predicate SoundOracle(rules: seq<Rule>, oracle: Oracle)
  {
    forall k, e :: 0 <= k < |rules| && oracle(rules[k].pattern, e).Some? ==>
      SoundSplit(rules[k].action, e, oracle(rules[k].pattern, e).value)
  }

  /** The label rules re-emit exactly the matched text, as a brown label and a tail. */
  lemma LabelRulesReemitMatch(palette: Palette, expanded: seq<string>, m: string)
    ensures HasShape(LabelParen, m) ==>
      Apply(LabelParen, palette, expanded, m) == Widget(ParenLabel(m[..|m| - 2]))
      && m[..|m| - 2] + " (" == m
    ensures HasShape(LabelAsync, m) ==>
      Apply(LabelAsync, palette, expanded, m) == Widget(AsyncLabel(m[..|m| - 5]))
      && m[..|m| - 5] + "async" == m
  {
    if HasShape(LabelParen, m) {
      assert m[..|m| - 2] + m[|m| - 2..] == m;
    }
    if HasShape(LabelAsync, m) {
      assert m[..|m| - 5] + m[|m| - 5..] == m;
    }
  }

  /**
   * A marker `#[name]#` names the section `name`. For a name that is not an
   * inherited member it shows Shrink exactly when the section is expanded;
   * for an inherited member such as `constructor` it shows Shrink even when
   * nothing is expanded.
   */
  lemma MarkerToggles(palette: Palette, expanded: seq<string>, name: string)
    ensures MarkerCode("#[" + name + "]#") == name
    ensures name !in InheritedMembers ==>
      Apply(Marker, palette, expanded, "#[" + name + "]#")
        == if name in expanded then Widget(ShrinkButton(name)) else Widget(ExpandButton(name))
    ensures name in InheritedMembers ==>
      Apply(Marker, palette, [], "#[" + name + "]#") == Widget(ShrinkButton(name))
  {
    var m := "#[" + name + "]#";
    assert m[2..|m| - 2] == name;
  }

  lemma ApplyEchoes(action: RuleAction, palette: Palette, expanded: seq<string>, m: string)
    requires HasShape(action, m)
    ensures Echo(Apply(action, palette, expanded, m)) == m
  {
    match action
    case Color(_) =>
    case LabelParen => LabelRulesReemitMatch(palette, expanded, m);
    case LabelAsync => LabelRulesReemitMatch(palette, expanded, m);
    case Marker =>
      assert m[..2] + m[2..|m| - 2] + m[|m| - 2..] == m;
  }

  /** Given a sound oracle, the pieces `split` returns spell out the element it was given. */
  lemma {:induction false} TokenizeKeepsText(v: Variant, oracle: Oracle, expanded: seq<string>,
                                             element: string, depth: nat)
    requires SoundOracle(v.rules, oracle)
    ensures Tokenize(v, oracle, expanded, element, depth).Ok? ==>
            EchoAll(Tokenize(v, oracle, expanded, element, depth).pieces) == element
    decreases 4 - depth, 1, 0
  {
    if !(depth > 3 || Trim(element) == "") {
      match FirstSplit(v, oracle, element, 0)
      case NoRule =>
      case ThrewAt(_) =>
      case Chosen(k, parts) =>
        var action := v.rules[k].action;
        assert SoundSplit(action, element, parts);
        RenderPartsKeepText(v, oracle, expanded, action, parts, 0, depth);
        assert parts[0..] == parts;
    }
  }

  lemma {:induction false} RenderPartsKeepText(v: Variant, oracle: Oracle, expanded: seq<string>,
                                               action: RuleAction, parts: seq<string>, i: nat, depth: nat)
    requires SoundOracle(v.rules, oracle)
    requires depth <= 3 && i <= |parts|
    requires forall j :: 0 <= j < |parts| && j % 2 == 1 ==> HasShape(action, parts[j])
    ensures RenderParts(v, oracle, expanded, action, parts, i, depth).Ok? ==>
            EchoAll(RenderParts(v, oracle, expanded, action, parts, i, depth).pieces) == Concat(parts[i..])
    decreases 4 - depth, 0, |parts| - i
  {
    if i < |parts| {
      var head := RenderPart(v, oracle, expanded, action, parts, i, depth);
      var tail := RenderParts(v, oracle, expanded, action, parts, i + 1, depth);
      RenderPartsKeepText(v, oracle, expanded, action, parts, i + 1, depth);
      if head.Ok? && tail.Ok? {
        if i % 2 == 0 {
          TokenizeKeepsText(v, oracle, expanded, parts[i], depth + 1);
        } else {
          ApplyEchoes(action, v.palette, expanded, parts[i]);
          assert EchoAll(head.pieces) == Echo(head.pieces[0]) + EchoAll([]);
        }
        EchoAllAppend(head.pieces, tail.pieces);
        assert parts[i..][1..] == parts[i + 1..];
      }
    }
  }

  // ---------------------------------------------------------------------------
  // The text handed to split

  predicate AllSpaces(t: string)
  {
    forall i :: 0 <= i < |t| ==> t[i] == ' '
  }

  predicate NoSpaces(t: string)
  {
    forall i :: 0 <= i < |t| ==> t[i] != ' '
  }

  predicate NoLineTerminators(t: string)
  {
    forall i :: 0 <= i < |t| ==> !IsLineTerminator(t[i])
  }

  /** The number of spaces the line starts with. */
  function LeadingSpaces(s: string): (n: nat)
    ensures n <= |s| && AllSpaces(s[..n])
    ensures n < |s| ==> s[n] != ' '
    decreases |s|
  {
    if |s| > 0 && s[0] == ' ' then
      var n := 1 + LeadingSpaces(s[1..]);
      assert s[..n] == [s[0]] + s[1..][..n - 1];
      n
    else 0
  }

  /** The length of the run of non-space characters the string starts with. */
  function NonSpaceRun(s: string): (n: nat)
    ensures n <= |s| && NoSpaces(s[..n])
    ensures n < |s| ==> s[n] == ' '
    decreases |s|
  {
    if |s| > 0 && s[0] != ' ' then
      var n := 1 + NonSpaceRun(s[1..]);
      assert s[..n] == [s[0]] + s[1..][..n - 1];
      n
    else 0
  }

  /** `/^( *)[^ ]*.*$/` matches `s`: spaces, then non-spaces, then a rest without line terminators. */
  ghost predicate IndentPatternMatchesSomeSplit(s: string)
  {
    exists a, b :: 0 <= a <= b <= |s| && AllSpaces(s[..a]) && NoSpaces(s[a..b]) && NoLineTerminators(s[b..])
  }

  /** The same test as the backtracking matcher settles it: the greedy split is the one to check. */
  predicate IndentPatternMatches(s: string)
  {
    var k := LeadingSpaces(s);
    NoLineTerminators(s[k + NonSpaceRun(s[k..])..])
  }

  lemma IndentPatternMatchesExactly(s: string)
    ensures IndentPatternMatches(s) <==> IndentPatternMatchesSomeSplit(s)
  {
    var k := LeadingSpaces(s);
    var x := NonSpaceRun(s[k..]);
    if IndentPatternMatches(s) {
      assert s[k..k + x] == s[k..][..x];
      assert AllSpaces(s[..k]) && NoSpaces(s[k..k + x]) && NoLineTerminators(s[k + x..]);
    }
    if IndentPatternMatchesSomeSplit(s) {
      var a, b :| 0 <= a <= b <= |s| && AllSpaces(s[..a]) && NoSpaces(s[a..b]) && NoLineTerminators(s[b..]);
      GreedyRunReachesFurthest(s, a, b);
      NoLineTerminatorsInSuffix(s, b, k + x);
    }
  }

  /** Any split into spaces and then non-spaces ends no later than the greedy one. */
  lemma GreedyRunReachesFurthest(s: string, a: nat, b: nat)
    requires a <= b <= |s| && AllSpaces(s[..a]) && NoSpaces(s[a..b])
    ensures LeadingSpaces(s) + NonSpaceRun(s[LeadingSpaces(s)..]) >= b
  {
    var k := LeadingSpaces(s);
    var x := NonSpaceRun(s[k..]);
    assert forall i :: 0 <= i < a ==> s[i] == ' ' by {
      forall i | 0 <= i < a ensures s[i] == ' ' { assert s[..a][i] == s[i]; }
    }
    assert forall i :: a <= i < b ==> s[i] != ' ' by {
      forall i | a <= i < b ensures s[i] != ' ' { assert s[a..b][i - a] == s[i]; }
    }
    assert k + x < |s| ==> s[k + x] == ' ' by {
      if k + x < |s| { assert s[k..][x] == s[k + x]; }
    }
  }

  lemma NoLineTerminatorsInSuffix(s: string, b: nat, c: nat)
    requires b <= c <= |s| && NoLineTerminators(s[b..])
    ensures NoLineTerminators(s[c..])
  {
    forall i | 0 <= i < |s| - c ensures !IsLineTerminator(s[c..][i]) {
      assert s[c..][i] == s[b..][i + c - b];
    }
  }

  /**
   * `children.replace(/^( *)[^ ]*.*$/, '$1').length`: the leading-space count
   * when the pattern matches (greedy `( *)` takes them all); otherwise the
   * string is left alone and its whole length is taken.
   */
  function IndentReplaceLength(s: string): (n: nat)
    ensures n <= |s|
    ensures IndentPatternMatches(s) ==> AllSpaces(s[..n]) && (n < |s| ==> s[n] != ' ')
    ensures !IndentPatternMatches(s) ==> n == |s|
  {
    if IndentPatternMatches(s) then LeadingSpaces(s) else |s|
  }

  /**
   * The text handed to `split`, as written: `children.substring(numberOfSpaces).trim()`.
   * It is never longer than the line, and a blank line gives "" whether or not
   * the pattern matches.
   */
  function LineTextAsWritten(s: string): (r: string)
    ensures |r| <= |s|
    ensures IsBlank(s) ==> r == ""
  {
    var n := IndentReplaceLength(s) / 2;
    var cut := Substring(s, n, |s|);
    assert cut == s[n..];
    if IsBlank(s) then
      assert IsBlank(cut) by {
        forall i | 0 <= i < |cut| ensures IsJsWhitespace(cut[i]) {
          assert cut[i] == s[n + i];
        }
      }
      TrimEmptyIffBlank(cut);
      Trim(cut)
    else Trim(cut)
  }

  /** Where the indent pattern matches, the text handed to `split` is the trimmed line. */
  lemma LineTextAsWrittenWhenMatched(s: string)
    requires IndentPatternMatches(s)
    ensures LineTextAsWritten(s) == Trim(s)
  {
    HalfIndentCut(s);
  }

  lemma SpacesAreWhitespace(s: string, k: nat, n: nat)
    requires n <= k <= |s| && AllSpaces(s[..k])
    ensures forall i :: 0 <= i < n ==> IsJsWhitespace(s[i])
  {
    forall i | 0 <= i < n ensures IsJsWhitespace(s[i]) {
      assert s[..k][i] == ' ';
    }
  }

  lemma TrimAfterCut(s: string, n: nat)
    requires n <= |s|
    requires forall i :: 0 <= i < n ==> IsJsWhitespace(s[i])
    ensures Trim(Substring(s, n, |s|)) == Trim(s)
  {
    TrimSkipsLeadingWhitespace(s, n);
    assert Substring(s, n, |s|) == s[n..];
  }

  /** Cutting half the leading spaces and trimming is trimming. */
  lemma HalfIndentCut(s: string)
    ensures Trim(Substring(s, LeadingSpaces(s) / 2, |s|)) == Trim(s)
  {
    var k := LeadingSpaces(s);
    var n := k / 2;
    assert n <= k <= |s|;
    SpacesAreWhitespace(s, k, n);
    TrimAfterCut(s, n);
  }

  lemma ExampleLeadingSpaces(s: string)
    requires s == "  a b\nc"
    ensures LeadingSpaces(s) == 2
  {
    assert s[1..][1..] == s[2..];
    assert s[2..][0] == 'a';
  }
  lemma ExampleNonSpaceRun(s: string)
    requires s == "  a b\nc"
    ensures NonSpaceRun(s[2..]) == 1
  {
    assert s[2..][1..] == s[3..];
    assert s[3..][0] == ' ';
  }
  lemma ExamplePatternFails(s: string)
    requires s == "  a b\nc"
    ensures !IndentPatternMatches(s)
  {
    ExampleLeadingSpaces(s);
    ExampleNonSpaceRun(s);
    assert s[3..][2] == '\n';
  }
  lemma ExampleCutTrimmed(s: string)
    requires s == "  a b\nc"
    ensures Trim(s[3..]) == s[4..]
  {
    var cut := s[3..];
    assert cut[0] == ' ' && cut[1] == 'b' && cut[|cut| - 1] == 'c';
    TrimDropsPrefix(cut, 1);
    assert cut[1..] == s[4..];
  }
  lemma ExampleLineTrimmed(s: string)
    requires s == "  a b\nc"
    ensures Trim(s) == s[2..]
  {
    assert s[0] == ' ' && s[1] == ' ' && s[2] == 'a' && s[|s| - 1] == 'c';
    TrimDropsPrefix(s, 2);
  }

  /**
   * A line with a space before a line break, such as "  a b\nc": the pattern
   * fails, the whole length is halved, and visible text is cut off.
   */
  lemma LineTextAsWrittenDropsText(s: string)
    requires s == "  a b\nc"
    ensures !IndentPatternMatches(s)
    ensures LineTextAsWritten(s) == "b\nc"
    ensures Trim(s) == "a b\nc"
  {
    ExamplePatternFails(s);
    assert IndentReplaceLength(s) / 2 == 3;
    assert Substring(s, 3, |s|) == s[3..];
    ExampleCutTrimmed(s);
    ExampleLineTrimmed(s);
  }

  /** The text handed to `split`: the half-indent cut drops only spaces, so it is the trimmed line. */
  function LineText(s: string): (r: string)
    ensures r == Trim(s)
  {
    HalfIndentCut(s);
    Trim(Substring(s, LeadingSpaces(s) / 2, |s|))
  }

  /**
   * One line of the widget as written: `split(children.substring(numberOfSpaces).trim())`.
   * A blank line renders as one empty piece, and where the indent pattern
   * matches, the line is rendered from its trimmed text.
   */
  function RenderLine(v: Variant, oracle: Oracle, expanded: seq<string>, children: string): (r: Rendered)
    ensures IsBlank(children) ==> r == Ok([Plain("")])
    ensures IndentPatternMatches(children) ==> r == Tokenize(v, oracle, expanded, Trim(children), 0)
  {
    if IndentPatternMatches(children) then
      LineTextAsWrittenWhenMatched(children);
      Tokenize(v, oracle, expanded, LineTextAsWritten(children), 0)
    else Tokenize(v, oracle, expanded, LineTextAsWritten(children), 0)
  }

  /**
   * One line rendered from the corrected text `LineText`. It renders a blank
   * line the same way, and agrees with `RenderLine` wherever the indent
   * pattern matches.
   */
  function RenderLineCorrected(v: Variant, oracle: Oracle, expanded: seq<string>, children: string): (r: Rendered)
    ensures IsBlank(children) ==> r == Ok([Plain("")])
    ensures IndentPatternMatches(children) ==> r == RenderLine(v, oracle, expanded, children)
  {
    TrimEmptyIffBlank(children);
    Tokenize(v, oracle, expanded, LineText(children), 0)
  }
}
